=== FILE: README.md ===
# ody-dev/process in Dafny

A model of the core of `ody-dev/process`, a PHP library that supervises worker
processes on top of Swoole. The model has two halves.

- **The supervisor** (`ProcessManager`) keeps a configuration array and a
  shared table of the workers it started, keyed by pid. It can initialise the
  table, start a worker class, signal and forget a worker, list the table, and
  ask whether a class is running. Forking, signal delivery and the clock are
  inputs to the operations. A supervisor whose table was never created is a
  separate state, because touching the table before `init` is an error in the
  source.
- **The workers**: the run loop shared by every worker (`BaseProcess`) and its
  three transports. The pipe worker (`StandardProcess`) does one bounded read
  per tick. The Unix-socket worker (`UnixProcess`) and the TCP worker
  (`TcpProcess`) do one accept per tick and serve one complete request per
  accepted client (`StreamServer`). A TCP worker bound to port 0 reports its
  OS-assigned port through a one-shot JSON message (`Handshake`). The three
  example handlers are modelled as well: `EchoProcess`, `LoggerProcess`, and
  the HTTP request parser and response builder of `HttpProxy`.

How things are represented:

- A PHP string is a sequence of bytes (`ByteStrings.Bytes`). PHP truthiness is
  `Truthy`: the empty string and `"0"` are false. Everything the loops test
  with `if ($data)` or `while ($buffer = …)` goes through it.
- What a worker does to the outside world is recorded as a sequence of
  `WorkerIo.Effect` values: reads, writes, handler calls, accepts, closes,
  setup calls, signal dispatches and sleeps. Properties are stated over that
  log and over its projections `Calls`, `PipeWrites` and `ClientWrites`.
- A run of a worker is a trace of ticks. Each tick holds the signals pending
  at that iteration's `pcntl_signal_dispatch()` and what the transport sees
  in that iteration (a read result, or an accepted client with its sequence
  of read results). Whether `socket_create`, `socket_bind` and `socket_listen`
  succeed is an oracle (`SetupOracle`). So are the port reported by
  `socket_getsockname` and the result of `uniqid()`.
- The supervisor's operations are pure functions from state to state. Each
  returns the new state, the process started or the signal sent, and the
  result or the failure.
- `explode`, `implode`, `trim` and `substr($s, 0, $n)` are defined in
  `PhpString`. Decimal printing of integers, and the integer grammar of
  section 6 of RFC 8259 that reads it back, are defined in `Decimal`.

Three consequences of the code are worth stating up front.

- `ProcessManager` has no Unix- or TCP-specific start operation. Nothing in
  the supervisor waits for the `{"port":N}` handshake a TCP worker writes,
  and `kill` removes no socket file. The model therefore covers the worker
  side of the handshake, plus a decoder proved to invert it.
- `isRunning` compares a class name with the stored `name` column. That
  column is 128 bytes wide, and Swoole cuts longer strings to the column's
  width. So after a successful `execute`, `isRunning` holds for the class
  exactly when its name fits in 128 bytes (`ProcessManager.ExecuteThenRunning`).
- The proxy's `'GET'` default for the method can never apply, because
  `explode` always returns at least one piece. The method is always the text
  before the first space of the first line, possibly empty
  (`HttpProxy.MethodIsFirstToken`).

## Model

| member | source | states |
|---|---|---|
| `Decimal.NatToDecimal` | examples/HttpProxyProcess.php:71 | the decimal text of a length is a non-empty run of digits with no superfluous leading zero, and starts with "0" exactly for zero |
| `Decimal.NatToDecimalRoundTrip` | examples/HttpProxyProcess.php:71 | reading the digits printed for a natural number gives that number back |
| `Decimal.ParseInt` | src/TcpProcess.php:57 | an integer is read exactly from canonical digits, optionally after a minus sign, as the JSON integer grammar allows |
| `Decimal.IntToDecimalRoundTrip` | src/TcpProcess.php:57 | every integer, negative ones included, survives being printed as `json_encode` does and read back |
| `Decimal.IntToDecimalInjective` | src/TcpProcess.php:57 | two integers with the same decimal text are equal |
| `PhpValues.Coalesce` | src/UnixProcess.php:29 | `$a[$k] ?? …` falls back exactly when the key is missing or holds null, and otherwise yields the stored value |
| `PhpValues.StringArg` | src/TcpProcess.php:34 | a string property set from `$args[$k] ?? default` gets the default when the entry is missing or null, a string entry as it is, an integer entry as its decimal text, and a boolean as "1" or "" |
| `PhpValues.IntArg` | src/TcpProcess.php:35 | an int property set from `$args[$k] ?? default` gets the default when the entry is missing or null, an integer entry as it is, a boolean as 1 or 0, and a string entry exactly when it is a non-empty run of digits, as the value those digits denote |
| `PhpString.Explode` | examples/HttpProxyProcess.php:27 | `explode` with a non-empty delimiter always returns at least one piece |
| `PhpString.ImplodeExplode` | examples/HttpProxyProcess.php:27 | joining the pieces of `explode` with the same delimiter gives back the original string, for every string |
| `PhpString.ExplodeImplode` | examples/HttpProxyProcess.php:43 | splitting pieces joined with a delimiter gives back the pieces, when no piece can be confused with the delimiter |
| `PhpString.ExplodeAfterParts` | examples/HttpProxyProcess.php:43 | splitting joined pieces followed by the delimiter and more text gives the pieces, then the pieces of the rest |
| `PhpString.CrlfSeparable` | examples/HttpProxyProcess.php:27 | a piece is split off at the CRLF that follows it exactly when it holds no CRLF of its own; a lone CR or LF in it, even a CR at its end, does no harm |
| `PhpString.ExplodeFirst` | examples/HttpProxyProcess.php:28 | the first piece of `explode` is a prefix of the input without the delimiter, ending at the input's end or at an occurrence of the delimiter |
| `PhpString.ExplodeOnce` | examples/HttpProxyProcess.php:34 | `explode($d, $s, 2)` gives one piece, the whole string, exactly when `$d` does not occur; otherwise two pieces around the first occurrence |
| `PhpString.Trim` | examples/HttpProxyProcess.php:36 | `trim` returns the middle of the input after its run of leading strippable bytes, with only strippable bytes after it and no strippable byte at either end |
| `PhpString.TrimUnpadded` | examples/HttpProxyProcess.php:36 | a string with no strippable byte at either end is its own `trim` |
| `PhpString.Prefix` | src/Examples/LoggerProcess.php:18 | `substr($s, 0, $n)` is the prefix of length min(len, n) |
| `WorkerIo.Reply` | src/StandardProcess.php:31-33 | a null handler result causes no write; a string result causes exactly one write of that string to the given channel |
| `BaseProcess.Construct` | src/BaseProcess.php:25-36 | a new worker is running and keeps its arguments |
| `BaseProcess.Shutdown` | src/BaseProcess.php:46-49 | the shutdown handler clears `running` and nothing else |
| `BaseProcess.Dispatch` | src/BaseProcess.php:39-40 | a dispatch that delivers SIGTERM or SIGINT stops the worker; one that delivers neither changes nothing |
| `BaseProcess.ShutdownIsFinal` | src/BaseProcess.php:46-49 | shutdown is idempotent, and no dispatch sets a stopped worker running again |
| `BaseProcess.FirstShutdown` | src/BaseProcess.php:64-66 | the first iteration whose dispatch delivers a shutdown signal: no earlier one does, and that one does |
| `BaseProcess.Iteration` | src/BaseProcess.php:64-73 | one pass of the loop: signal dispatch first, the 10 ms sleep last, and exactly one `processData` step in between |
| `BaseProcess.Iterations` | src/BaseProcess.php:64-73 | n passes produce at least 2n effects, and a non-empty run starts with a dispatch and ends with a sleep; `Handle` states how many passes run |
| `BaseProcess.Handle` | src/BaseProcess.php:62-74 | the loop's effects are the iterations it ran (dispatch, `processData`, sleep); a stopped worker runs none; a running one runs up to and including the iteration whose dispatch stops it, and is still running at the end exactly when no tick stops it |
| `BaseProcess.IterationsWriteNoPipe` | src/BaseProcess.php:64-73 | a loop whose `processData` never writes to the pipe never writes to the pipe |
| `StandardProcess.ProcessData` | src/StandardProcess.php:21-35 | every tick first reads with the 8192-byte bound; a falsy read ("" or "0" included) calls no handler and writes nothing; a truthy read calls the handler once, right after the read, with exactly the bytes read, and its non-null result is then written once to the pipe, unchanged |
| `StandardProcess.DefaultProcessMessage` | src/StandardProcess.php:44-47 | the default handler has no response for any message; `DefaultNeverWrites` states the consequence |
| `StandardProcess.DefaultNeverWrites` | src/StandardProcess.php:44-47 | with the default `processMessage` a pipe worker never writes |
| `StreamServer.FirstFalsy` | src/UnixProcess.php:122-124 | the index of the read that ends the read loop: every earlier read is truthy and that one is not |
| `StreamServer.ReadLoop` | src/UnixProcess.php:122-124 | the read loop issues reads up to and including the first falsy one |
| `StreamServer.ReadLoopConcatenates` | src/UnixProcess.php:121-124 | the request is the concatenation of the chunks read before the first falsy read |
| `StreamServer.RequestEmptiness` | src/UnixProcess.php:126 | the request is empty exactly when the first read is falsy, and a non-empty request is never "0", so `!empty` and truthiness agree on it |
| `StreamServer.HandleClient` | src/UnixProcess.php:118-135 | the reads come first, up to and including the first falsy one; an empty request then calls no handler and writes nothing; a non-empty request calls the handler once with the whole request, and its non-null result is then written once to the client; after the reads there is only the handler call and client writes; the client is neither accepted nor closed here |
| `StreamServer.ProcessData` | src/UnixProcess.php:99-111 | each tick tries one accept; without a client that is all; with a client the effects are exactly the accept, that client's handling and the close; there is at most one client write, of exactly the handler's result, and no pipe write |
| `StreamServer.Step` | src/UnixProcess.php:99-111 | `processData` as the run loop calls it: no step, whatever it accepts, writes to the pipe |
| `UnixProcess.Construct` | src/UnixProcess.php:25-30 | the socket path is `args['socket_path']` when it holds a string, and `/tmp/swoole_<uniqid>.sock` when it is missing or null |
| `UnixProcess.CreateSocketServer` | src/UnixProcess.php:65-94 | setup removes a stale socket file, then creates, binds, listens with backlog 128, makes the file 0777 and goes non-blocking, in that order; the first failing call ends setup with its error; afterwards the socket file exists exactly when the bind succeeded or a stale file failed to be removed |
| `UnixProcess.Unlink` | src/UnixProcess.php:159-161 | `unlink` of an existing file removes it unless the call fails, whose result the code ignores, and touches no other file |
| `UnixProcess.Cleanup` | src/UnixProcess.php:152-162 | cleanup closes the listening socket exactly when there is one and then drops it, tries to remove the socket file exactly when it exists, and leaves the file in place only when that removal fails |
| `UnixProcess.CleanupIdempotent` | src/UnixProcess.php:152-162 | a second cleanup closes nothing, and once the first one removed the socket file it does nothing and changes nothing |
| `UnixProcess.Handle` | src/UnixProcess.php:43-60 | if setup fails, neither the loop nor the cleanup runs; otherwise the effects are setup's calls, then exactly the base loop's iterations of `processData`, then cleanup's calls when the worker stopped, and the files are setup's, or cleanup's when the worker stopped; the worker stops exactly when a tick delivers a shutdown signal, with the base loop's number of calls, its listener closed, and the socket file gone unless its removal failed; the socket path and arguments are kept and no other file changes |
| `TcpProcess.Construct` | src/TcpProcess.php:30-36 | `host` is `args['host']` coerced to a string, 127.0.0.1 when missing or null, a given string kept as it is; `port` is `args['port']` coerced to an int, 0 when missing or null, an integer as it is and a digit string as its value; in the model, construction fails exactly when `port` is a string that is not a run of digits (PHP converts more strings; see Left out) |
| `TcpProcess.CreateSocketServer` | src/TcpProcess.php:77-101 | setup creates, sets SO_REUSEADDR, binds to host and port, listens with backlog 128 and goes non-blocking, in that order; the first failing call ends setup with its error and nothing after it runs |
| `TcpProcess.ReportPort` | src/TcpProcess.php:54-58 | with port 0 the worker queries its port, takes the OS-assigned one and writes the handshake for it to the pipe; when the OS reports no port, the port stays 0 and the handshake reports 0; with a non-zero port it does nothing |
| `TcpProcess.Cleanup` | src/TcpProcess.php:159-165 | cleanup closes the listening socket exactly when there is one, and leaves none |
| `TcpProcess.CleanupIdempotent` | src/TcpProcess.php:159-165 | a second cleanup does nothing and changes nothing |
| `TcpProcess.CleanupWritesNoPipe` | src/TcpProcess.php:159-165 | cleanup writes nothing to the pipe |
| `TcpProcess.Serve` | src/TcpProcess.php:60-71 | the effects are exactly the base loop's iterations of `processData`, then the listener's close when the worker stopped; nothing is written to the pipe; the worker stops exactly when a tick delivers a shutdown signal, after the base loop's number of calls |
| `TcpProcess.ServedWritesNoPipe` | src/TcpProcess.php:60-71 | the served iterations, with or without the cleanup after them, write nothing to the pipe |
| `TcpProcess.Handle` | src/TcpProcess.php:49-72 | a setup failure writes nothing to the pipe and enters no loop; after a successful setup the effects are setup's calls, the port report, the base loop's iterations of `processData` and, when the worker stopped, the listener's close; with a non-zero port nothing is written to the pipe and the port is kept; with port 0 exactly one handshake is written, right after setup and before the first loop iteration, carrying the OS-assigned port; the host and arguments are kept |
| `TcpProcess.Started` | src/TcpProcess.php:54-71 | after a successful setup: the port report, then the loop and cleanup, with the handshake as the only pipe write and the worker stopped exactly when a tick delivers a shutdown signal; the host and arguments are kept |
| `TcpProcess.HandshakeFirst` | src/TcpProcess.php:55-65 | when setup and the loop write nothing to the pipe, the handshake is the only pipe write and it comes before any signal dispatch |
| `TcpProcess.SetupWritesNothing` | src/TcpProcess.php:77-101 | no prefix of the setup calls writes to the pipe or dispatches signals, so a failing setup sends no handshake |
| `Handshake.Encode` | src/TcpProcess.php:57 | the handshake is `{"port":` followed by the port and a closing brace |
| `Handshake.Decode` | src/TcpProcess.php:57 | only text of the form `{"port":…}` is read as a handshake |
| `Handshake.DecodeEncode` | src/TcpProcess.php:57 | reading a handshake back yields exactly the port the worker reported |
| `HttpProxy.HeaderField` | examples/HttpProxyProcess.php:34-36 | a header line is skipped exactly when it has no colon |
| `HttpProxy.Collect` | examples/HttpProxyProcess.php:33-39 | the header loop's last line, when it has a colon, always sets its name to its value; `CollectNames` and `CollectLastWins` give the exact set of names and which value wins |
| `HttpProxy.HeaderFieldSplit` | examples/HttpProxyProcess.php:34-36 | a line with a colon splits at its first colon, and the name and value are the trimmed text before and after it |
| `HttpProxy.HeaderLineField` | examples/HttpProxyProcess.php:34-36 | `name: value` with a colon-free name and no strippable padding reads back as exactly that name and value |
| `HttpProxy.CollectNames` | examples/HttpProxyProcess.php:33-39 | a name is in the header map exactly when some header line sets it |
| `HttpProxy.CollectLastWins` | examples/HttpProxyProcess.php:36 | when a name repeats, the map holds the value of the last line that sets it |
| `HttpProxy.HeaderEnd` | examples/HttpProxyProcess.php:31-39 | the header block runs from line 1 to the first empty line, or to the end of the input when there is none |
| `HttpProxy.MethodIsFirstToken` | examples/HttpProxyProcess.php:47 | the method is a prefix of the input with no space and no CRLF, ending at the input's end, a space or a CRLF |
| `HttpProxy.ParseHttpRequest` | examples/HttpProxyProcess.php:24-53 | empty input gives an empty method, the default path and version, no headers and no body; the full behaviour is stated by `ParseShape`, `ParseMessage`, `ParseUnterminated` and `MethodIsFirstToken` |
| `HttpProxy.MessageLines` | examples/HttpProxyProcess.php:27 | a message whose start line and header lines hold no CRLF (lone CR and LF bytes allowed) splits on CRLF into its start line, its header lines, the empty line and the lines of the body |
| `HttpProxy.RequestLineFields` | examples/HttpProxyProcess.php:28 | a request line joined from space-free, CRLF-free fields splits back into those fields and holds no CRLF |
| `HttpProxy.ParseShape` | examples/HttpProxyProcess.php:24-53 | input whose lines are a start line, header lines, an empty line and any further lines parses into the start line's fields (with path and version defaults), the header lines' map and the further lines rejoined, so input that ends with the empty line has no body |
| `HttpProxy.ParseMessage` | examples/HttpProxyProcess.php:24-53 | a request whose fields are space-free and CRLF-free and whose header lines are non-empty and CRLF-free parses back into its method, its path and version (or their defaults), its headers and exactly its body, whatever bytes the body holds |
| `HttpProxy.ParseUnterminated` | examples/HttpProxyProcess.php:41-44 | without the empty line that ends the headers, every later line (non-empty and CRLF-free) is a header line and the body is empty |
| `HttpProxy.ParseTwoHeaders` | examples/HttpProxyProcess.php:33-39 | a request with two distinct headers parses into exactly those two headers and its body |
| `HttpProxy.GetRequestExample` | examples/HttpProxyProcess.php:24-53 | `GET /test HTTP/1.1`, one `Host: localhost` header and no body parse to that method, path, version, header and an empty body |
| `HttpProxy.ResponseIsMessage` | examples/HttpProxyProcess.php:69-73 | the reply is a status line, a Content-Type line, a Content-Length line, an empty line and the body |
| `HttpProxy.Response` | examples/HttpProxyProcess.php:69-73 | the reply ends with exactly the body, after a non-empty head; `ResponseIsMessage` and `ResponseParses` state the head's layout and that the whole reply parses back |
| `HttpProxy.ResponseParses` | examples/HttpProxyProcess.php:69-73 | the reply parses back into `HTTP/1.1 200 OK`, exactly the two headers, and the body unchanged, and its Content-Length value is the body's byte length |
| `HttpProxy.ProcessMessage` | examples/HttpProxyProcess.php:12-22 | the proxy always answers |
| `HttpProxy.ProxyReplyConsistent` | examples/HttpProxyProcess.php:55-74 | for any input, the reply is a 200 response whose body is the encoding of the request's method and path and whose Content-Length equals that body's length |
| `EchoProcess.ProcessMessage` | src/Examples/EchoProcess.php:11-15 | the echo worker always answers, with `Echo: ` in front of the message, six bytes longer than it |
| `EchoProcess.Untag` | src/Examples/EchoProcess.php:14 | a reply can be untagged exactly when it starts with `Echo: ` |
| `EchoProcess.UntagReply` | src/Examples/EchoProcess.php:14 | removing the tag from a reply gives back the message |
| `EchoProcess.ReplyInjective` | src/Examples/EchoProcess.php:14 | two messages get the same reply exactly when they are equal |
| `EchoProcess.PingExample` | src/Examples/EchoProcess.php:14 | `ping` is answered with `Echo: ping` |
| `EchoProcess.EchoTick` | src/Examples/EchoProcess.php:11-15 | a tick of an echo worker writes the tagged message to the pipe for a truthy read, and nothing otherwise |
| `LoggerProcess.Reply` | src/Examples/LoggerProcess.php:18 | the reply is `Logged: ` and the message when it has at most 30 bytes, and `Logged: `, its first 30 bytes and `...` when it is longer; it never exceeds 41 bytes |
| `LoggerProcess.ProcessMessage` | src/Examples/LoggerProcess.php:12-19 | the logger always answers, with a reply starting with `Logged: ` |
| `LoggerProcess.SameReply` | src/Examples/LoggerProcess.php:18 | two messages get the same reply exactly when both are short and equal, or both are long and share their first 30 bytes |
| `LoggerProcess.LogFile` | src/Examples/LoggerProcess.php:15 | the log file is `args['log_file']` unless it is missing or null, and `/tmp/process.log` then |
| `LoggerProcess.LogLine` | src/Examples/LoggerProcess.php:16 | the logged line is the timestamp, the message and a newline |
| `ProcessManager.Init` | src/ProcessManager.php:28-41 | every given key takes the given value, every other key keeps its value and no key appears from nowhere; in the model, `new Table` throws a type error exactly when the merged `max_processes` is a string that is not a run of digits (PHP converts more strings; see Left out), and then the merged configuration stays and the table is left as it was (absent or the old one); otherwise the table is created empty |
| `ProcessManager.InitKeepsDefaults` | src/ProcessManager.php:19-35 | on the first `init`, `max_processes` is 128 and `enable_coroutine` is true unless the caller sets them, and without a `max_processes` of the caller's own the table is created |
| `ProcessManager.InitWellFormed` | src/ProcessManager.php:33-40 | `init` leaves a well-formed table: a fresh one, or the old well-formed one when `new Table` throws |
| `ProcessManager.Execute` | src/ProcessManager.php:52-102 | a missing class, a class that is not a process and a failed start fail without a child and without a change; a started child runs the class with the given arguments and the framework title; with a table, the row for the returned pid holds the pid, the name cut to 128 bytes, status 1, the start time and zero memory, and no other row changes; without a table the child is already running when the call fails |
| `ProcessManager.ExecutePreservesWellFormed` | src/ProcessManager.php:93-99 | `execute` keeps every row under its own pid, running, and within the name column |
| `ProcessManager.Kill` | src/ProcessManager.php:107-120 | an untracked pid gets no signal and changes nothing; a tracked one is sent the given signal and only its row is removed |
| `ProcessManager.KillPreservesWellFormed` | src/ProcessManager.php:109-115 | `kill` keeps the table well formed |
| `ProcessManager.KillTwice` | src/ProcessManager.php:107-120 | killing the same pid again returns false, sends nothing and changes nothing |
| `ProcessManager.ExecuteThenKill` | src/ProcessManager.php:93-115 | starting a worker under a fresh pid and killing it with the default signal sends it SIGTERM and restores the supervisor state exactly |
| `ProcessManager.GetRunningProcesses` | src/ProcessManager.php:125-133 | the listing holds exactly the table's pids, each with its row |
| `ProcessManager.IsRunning` | src/ProcessManager.php:138-147 | the answer is true exactly when some row carries the name and status 1 |
| `ProcessManager.LongNameNeverRunning` | src/ProcessManager.php:138-147 | a class name longer than the name column never matches a stored row |
| `ProcessManager.ExecuteThenRunning` | src/ProcessManager.php:93-101 | after a successful `execute`, `isRunning` holds for the class exactly when its name fits the 128-byte column |

## Left out

- `waitAll` (src/ProcessManager.php:152-157) is not modelled. It is a blocking loop over the OS's reaping of children and has no state of its own.
- Forking, `Process::kill` delivery, `pcntl_signal_dispatch`, the socket system calls and `usleep` are inputs (oracles and traces). The sleep is recorded as an effect, but its timing is not modelled.
- Coroutine mode is recorded in the spawned child's record (`CoroutineMode`) but not simulated. How the child's worker runs inside `go()` is Swoole's concern.
- The table's row capacity (`max_processes`, passed to Swoole) is not modelled. `set`'s result is ignored by the source, so the source makes no promise about overflow.
- `executeUnix` and `executeTcp` are not modelled. The demo script and the service provider call them, but `ProcessManager` does not define them, so there is no code to model.
- Framework wiring (both `ProcessServiceProvider` classes) is not modelled. It only reads configuration and boots the supervisor.
- The `Process` facade is not modelled. It only forwards calls, and its `kill` always uses the default signal.
- `AbstractProcess` and `ExampleProcess` are not modelled. They are legacy classes that the run loop and transports do not use.
- `ProcessInterface` appears only as the class test in `execute` (src/ProcessManager.php:58): the model's `Classes` map records whether a class implements it, and `BaseProcess` does (src/BaseProcess.php:10). The interface declares `__construct(Process $worker)` (src/ProcessInterface.php:19), and PHP holds an implementing class to a constructor an interface declares. `BaseProcess::__construct(array $args, Process $worker)` (src/BaseProcess.php:33) adds a required parameter and changes the first one's type, so declaring `BaseProcess` is a fatal error. As written, `EchoProcess`, `LoggerProcess`, `UnixProcess` and `TcpProcess` cannot be loaded, and `execute` dies in the autoload that `class_exists` triggers (src/ProcessManager.php:54). The model describes the workers as if that declaration were accepted, with the two-argument constructor the supervisor calls (src/ProcessManager.php:68 and :72).
- The demo scripts (`Example.php`, `chat_client_cli.php`) are not modelled. They only do network I/O and printing; the request in `Example.php` appears as `HttpProxy.GetRequestExample`.
- The proxy's `json_encode` of its reply body is an oracle (`HttpProxy.Encoder`) over the method and path it includes. JSON string escaping is not modelled; a failed encoding gives an empty body, as `strlen(false)` and string concatenation do.
- The logger's `date()` text is a parameter of `LoggerProcess.LogLine`. The file append itself is not recorded in the effect log.
- `time()` and `uniqid()` are parameters. The `var_dump` and `echo` diagnostics are not modelled.
- `array_merge` is modelled for string keys only (`PhpValues.PhpArray`). Integer keys, which `array_merge` renumbers, do not occur in the configuration the source uses.
- A socket write is taken to send the whole response. Partial writes, write errors and exceptions thrown by a handler are not modelled.
- Configuration and argument values are null, booleans, integers and strings (`PhpValues.Value`). Floats and arrays are not modelled, so neither the conversions nor the type errors they would cause in the typed properties and in `new Table` are covered.
- Signals other than SIGTERM and SIGINT are assumed to have no handler, so dispatching them does nothing.
- PhpValues.IntArg: a string converts to an int only when it is a plain run of decimal digits, and then to its unbounded value. PHP's other numeric strings (leading or trailing whitespace such as `"8080 "`, a sign, a fraction or an exponent) and leading-numeric strings such as `"8080abc"`, which PHP converts with a warning, are rejected in the model, where PHP would convert them, and a digit string beyond `PHP_INT_MAX` keeps its exact value, where PHP would not produce that integer.
- TcpProcess.Construct: converts `port` as `PhpValues.IntArg` does, so construction fails in the model for the numeric and leading-numeric strings that line lists, where PHP converts them.
- ProcessManager.Init: converts `max_processes` as `PhpValues.IntArg` does, so it shares that line's limits on numeric strings. A null `max_processes` counts as 0, as PHP's coercion of null to an `int` parameter gives, and what Swoole's table does with a size below 1 is not modelled.
- ProcessManager.Execute: `name` is called in the supervisor before the fork (src/ProcessManager.php:77), so each `execute` also retitles the supervisor itself, and the child inherits that title; the model records the title only on the spawned child.
- Handshake.Decode: accepts only the compact form `json_encode` writes, not JSON with insignificant whitespace or other members.
- `StandardProcess.SocketType`, `UnixProcess.SocketType` and `TcpProcess.SocketType` are constants (datagram for the pipe, stream for the sockets). They carry no contract of their own.

=== FILE: baseprocess.dfy ===
/** The worker run loop shared by every transport: a `running` flag that the
    SIGTERM and SIGINT handlers clear, and a loop that, while the flag is set,
    dispatches pending signals, calls `processData` once and sleeps 10 ms.

    PHP runs `pcntl_signal` handlers only at `pcntl_signal_dispatch()`, so a
    run is described by a trace of ticks: the signals pending at the dispatch
    of each iteration, and the transport input (`I`) that iteration sees. */
module BaseProcess {

  import opened Signals
  import opened PhpValues
  import opened WorkerIo

  /** The sleep between iterations, in microseconds. */
  const PollMicros: nat := 10000

  /** The signals the constructor routes to `shutdown`. */
  const ShutdownSignals: set<int> := {SIGTERM, SIGINT}

  datatype Worker = Worker(args: PhpArray, running: bool)

  /** The constructor: the worker starts out running. */
  function Construct(args: PhpArray): (w: Worker)
    ensures w.running && w.args == args
  {
    Worker(args, true)
  }

  /** The signal handler: clear `running`. */
  function Shutdown(w: Worker): (r: Worker)
    ensures !r.running && r.args == w.args
  {
    w.(running := false)
  }

  /** Running the handlers of the pending signals. */
  function Dispatch(w: Worker, pending: set<int>): (r: Worker)
    ensures r.args == w.args
    ensures SIGTERM in pending || SIGINT in pending ==> !r.running
    ensures pending !! ShutdownSignals ==> r == w
  {
    if pending !! ShutdownSignals then w else Shutdown(w)
  }

  /** `shutdown` is idempotent, and no dispatch sets the flag back. */
  lemma ShutdownIsFinal(w: Worker, pending: set<int>)
    ensures Shutdown(Shutdown(w)) == Shutdown(w)
    ensures !w.running ==> !Dispatch(w, pending).running
  {
  }

  /** The input of one loop iteration. */
  datatype Tick<I> = Tick(pending: set<int>, io: I)

  predicate StopsAt<I>(t: Tick<I>) {
    !(t.pending !! ShutdownSignals)
  }

  /** The index of the first tick whose dispatch delivers SIGTERM or SIGINT,
      or the length of the trace when none does. */
  function FirstShutdown<I>(ticks: seq<Tick<I>>): (k: nat)
    ensures k <= |ticks|
    ensures forall i :: 0 <= i < k ==> !StopsAt(ticks[i])
    ensures k < |ticks| ==> StopsAt(ticks[k])
  {
    if ticks == [] || StopsAt(ticks[0]) then 0 else 1 + FirstShutdown(ticks[1..])
  }

  /** What one iteration does: dispatch, `processData`, sleep. */
  function Iteration<I>(t: Tick<I>, processData: I -> seq<Effect>): (r: seq<Effect>)
    ensures |r| == |processData(t.io)| + 2
    ensures r[0] == SignalsDispatched && r[|r| - 1] == Slept(PollMicros)
    ensures r[1..|r| - 1] == processData(t.io)
  {
    [SignalsDispatched] + processData(t.io) + [Slept(PollMicros)]
  }

  /** What a sequence of iterations does. */
  function Iterations<I>(ticks: seq<Tick<I>>, processData: I -> seq<Effect>): (r: seq<Effect>)
    ensures |r| >= 2 * |ticks|
    ensures ticks != [] ==> r[0] == SignalsDispatched && r[|r| - 1] == Slept(PollMicros)
  {
    if ticks == [] then []
    else Iterations(ticks[..|ticks| - 1], processData) + Iteration(ticks[|ticks| - 1], processData)
  }

  /** The default `handle`: the loop over `running`. It stops after the
      iteration whose dispatch delivers a shutdown signal, or when the trace
      ends while the worker is still running. `calls` counts the
      `processData` calls. */
  method Handle<I>(w: Worker, ticks: seq<Tick<I>>, processData: I -> seq<Effect>)
    returns (w': Worker, calls: nat, effects: seq<Effect>)
    ensures w'.args == w.args && calls <= |ticks|
    ensures effects == Iterations(ticks[..calls], processData)
    ensures !w.running ==> calls == 0 && w' == w
    ensures w.running ==> calls == LoopCalls(ticks)
    ensures w.running ==> (w'.running <==> FirstShutdown(ticks) == |ticks|)
  {
    w' := w;
    calls := 0;
    effects := [];
    while w'.running && calls < |ticks|
      invariant calls <= |ticks| && w'.args == w.args
      invariant effects == Iterations(ticks[..calls], processData)
      invariant !w.running ==> calls == 0 && w' == w
      invariant w.running ==> calls <= FirstShutdown(ticks) + 1
      invariant w.running ==> (w'.running <==> calls <= FirstShutdown(ticks))
    {
      w' := Dispatch(w', ticks[calls].pending);
      assert ticks[..calls + 1][..calls] == ticks[..calls];
      effects := effects + Iteration(ticks[calls], processData);
      calls := calls + 1;
    }
  }

  /** The number of `processData` calls a running worker makes over a trace:
      up to and including the iteration that dispatches the shutdown. */
  function LoopCalls<I>(ticks: seq<Tick<I>>): (n: nat)
    ensures n <= |ticks|
  {
    if FirstShutdown(ticks) < |ticks| then FirstShutdown(ticks) + 1 else |ticks|
  }

  /** A loop whose `processData` never writes to the pipe never writes to the pipe. */
  lemma {:induction false} IterationsWriteNoPipe<I>(ticks: seq<Tick<I>>, processData: I -> seq<Effect>)
    requires forall io :: PipeWrites(processData(io)) == []
    ensures PipeWrites(Iterations(ticks, processData)) == []
    decreases |ticks|
  {
    if ticks != [] {
      var last := ticks[|ticks| - 1];
      IterationsWriteNoPipe(ticks[..|ticks| - 1], processData);
      ProjectAppendAll([SignalsDispatched] + processData(last.io), [Slept(PollMicros)]);
      ProjectAll(SignalsDispatched, processData(last.io));
      ProjectAll(Slept(PollMicros), []);
      ProjectAppendAll(Iterations(ticks[..|ticks| - 1], processData), Iteration(last, processData));
    }
  }
}

=== FILE: bytes.dfy ===
/** Byte strings as PHP sees them: a PHP string is a sequence of bytes, and
    `strlen` is its length. */
module ByteStrings {

  import opened Results

  newtype byte = x: int | 0 <= x < 256

  type Bytes = seq<byte>

  const CR: byte := 13
  const LF: byte := 10
  const SP: byte := 32
  const COLON: byte := 58
  const ZERO: byte := 48

  /** The line delimiter of HTTP, "\r\n". */
  const CRLF: Bytes := [CR, LF]

  /** The bytes of a text literal; every character the model uses is ASCII,
      so each character stands for one byte. */
  function Ascii(s: string): (b: Bytes)
    ensures |b| == |s|
    ensures forall i :: 0 <= i < |s| ==> b[i] as int == s[i] as int % 256
  {
    seq(|s|, i requires 0 <= i < |s| => (s[i] as int % 256) as byte)
  }

  lemma AsciiAppend(s: string, t: string)
    ensures Ascii(s + t) == Ascii(s) + Ascii(t)
  {
  }

  /** PHP truthiness of a string: the empty string and "0" are false,
      every other string is true. */
  predicate Truthy(s: Bytes) {
    s != [] && s != [ZERO]
  }

  /** PHP truthiness of a read result, where `None` stands for `false`. */
  predicate TruthyRead(r: Option<Bytes>) {
    r.Some? && Truthy(r.value)
  }

  /** `p` occurs in `s` at position `i`. */
  predicate OccursAt(s: Bytes, p: Bytes, i: nat) {
    i + |p| <= |s| && s[i..i + |p|] == p
  }

  /** `p` occurs somewhere in `s`. */
  predicate Contains(s: Bytes, p: Bytes) {
    exists i :: 0 <= i <= |s| - |p| && OccursAt(s, p, i)
  }

  predicate IsPrefix(p: Bytes, s: Bytes) {
    |p| <= |s| && s[..|p|] == p
  }

  /** The concatenation of a sequence of strings. */
  function Concat(parts: seq<Bytes>): (r: Bytes)
    ensures parts == [] ==> r == []
  {
    if parts == [] then [] else Concat(parts[..|parts| - 1]) + parts[|parts| - 1]
  }

  lemma {:induction false} ConcatAppend(a: seq<Bytes>, b: seq<Bytes>)
    ensures Concat(a + b) == Concat(a) + Concat(b)
    decreases |b|
  {
    if b == [] {
      assert a + b == a;
    } else {
      var b' := b[..|b| - 1];
      assert (a + b)[..|a + b| - 1] == a + b';
      ConcatAppend(a, b');
    }
  }
}

=== FILE: decimal.dfy ===
/** Decimal text of integers: what PHP prints for an `int` (string
    conversion, `strlen` in a header, `json_encode` of a number) and the
    integer grammar of section 6 of RFC 8259 that reads it back. */
module Decimal {

  import opened Results
  import opened ByteStrings

  const MINUS: byte := 45

  predicate IsDigit(b: byte) {
    48 <= b <= 57
  }

  predicate AllDigits(s: Bytes) {
    forall i :: 0 <= i < |s| ==> IsDigit(s[i])
  }

  /** Digits without a superfluous leading zero: "0", or a non-zero digit first. */
  predicate Canonical(s: Bytes) {
    |s| >= 1 && AllDigits(s) && (s[0] == ZERO ==> |s| == 1)
  }

  function DigitOf(d: nat): (b: byte)
    requires d < 10
    ensures IsDigit(b) && (b - ZERO) as int == d
  {
    (48 + d) as byte
  }

  /** The value of a string of decimal digits; leading zeros are allowed. */
  function DigitsValue(s: Bytes): nat
    requires AllDigits(s)
  {
    if s == [] then 0 else DigitsValue(s[..|s| - 1]) * 10 + (s[|s| - 1] - ZERO) as int
  }

  /** The decimal text of a natural number, as PHP converts an `int` to a string. */
  function NatToDecimal(n: nat): (s: Bytes)
    ensures Canonical(s)
    ensures s[0] == ZERO <==> n == 0
    decreases n
  {
    if n < 10 then [DigitOf(n)] else NatToDecimal(n / 10) + [DigitOf(n % 10)]
  }

  /** Reading the decimal text of `n` gives back `n`. */
  lemma {:induction false} NatToDecimalRoundTrip(n: nat)
    ensures DigitsValue(NatToDecimal(n)) == n
    decreases n
  {
    if n >= 10 {
      var a := NatToDecimal(n / 10);
      var s := a + [DigitOf(n % 10)];
      assert s[..|s| - 1] == a;
      NatToDecimalRoundTrip(n / 10);
    }
  }

  /** The decimal text of any integer: a minus sign before negative values. */
  function IntToDecimal(i: int): (s: Bytes)
    ensures |s| >= 1
  {
    if i < 0 then [MINUS] + NatToDecimal(-i) else NatToDecimal(i)
  }

  /** An integer in the grammar of section 6 of RFC 8259 (no fraction, no exponent). */
  function ParseInt(s: Bytes): (r: Option<int>)
    ensures r.Some? <==> Canonical(s) || (|s| >= 2 && s[0] == MINUS && Canonical(s[1..]))
  {
    if |s| >= 1 && s[0] == MINUS then
      if Canonical(s[1..]) then Some(-(DigitsValue(s[1..]) as int)) else None
    else if Canonical(s) then Some(DigitsValue(s))
    else None
  }

  /** Every integer survives being printed and read back, so printing is injective. */
  lemma IntToDecimalRoundTrip(i: int)
    ensures ParseInt(IntToDecimal(i)) == Some(i)
  {
    var s := IntToDecimal(i);
    if i < 0 {
      var d := NatToDecimal(-i);
      assert s[0] == MINUS && s[1..] == d;
      NatToDecimalRoundTrip(-i);
      assert ParseInt(s) == Some(-(DigitsValue(d) as int));
    } else {
      assert IsDigit(s[0]);
      NatToDecimalRoundTrip(i);
      assert ParseInt(s) == Some(DigitsValue(s) as int);
    }
  }

  lemma IntToDecimalInjective(i: int, j: int)
    requires IntToDecimal(i) == IntToDecimal(j)
    ensures i == j
  {
    IntToDecimalRoundTrip(i);
    IntToDecimalRoundTrip(j);
  }
}

=== FILE: echo.dfy ===
/** The example pipe worker that answers every message with the message
    itself behind a fixed tag. */
module EchoProcess {

  import opened Results
  import opened ByteStrings
  import opened WorkerIo
  import StandardProcess

  /** The tag in front of every reply: `Echo: `. */
  function Tag(): Bytes {
    Ascii("Echo: ")
  }

  /** `processMessage`: always a reply, the tag followed by the message. */
  function ProcessMessage(data: Bytes): (r: Option<Bytes>)
    ensures r.Some?
    ensures |r.value| == |data| + 6
    ensures IsPrefix(Tag(), r.value)
  {
    Some(Tag() + data)
  }

  /** Recovers a message from a reply, or `None` for text without the tag. */
  function Untag(reply: Bytes): (r: Option<Bytes>)
    ensures r.Some? <==> IsPrefix(Tag(), reply)
  {
    if IsPrefix(Tag(), reply) then Some(reply[|Tag()|..]) else None
  }

  /** Removing the tag gives back the message. */
  lemma UntagReply(data: Bytes)
    ensures Untag(ProcessMessage(data).value) == Some(data)
  {
    assert (Tag() + data)[|Tag()|..] == data;
  }

  /** Different messages get different replies. */
  lemma ReplyInjective(a: Bytes, b: Bytes)
    ensures ProcessMessage(a) == ProcessMessage(b) <==> a == b
  {
    if ProcessMessage(a) == ProcessMessage(b) {
      UntagReply(a);
      UntagReply(b);
    }
  }

  /** The reply to `ping`. */
  lemma PingExample()
    ensures ProcessMessage(Ascii("ping")) == Some(Ascii("Echo: ping"))
  {
    AsciiAppend("Echo: ", "ping");
    assert "Echo: " + "ping" == "Echo: ping";
  }

  /** One tick of an echo worker: a truthy read is answered on the pipe with
      the tagged message and nothing else is written. */
  lemma EchoTick(read: Option<Bytes>)
    ensures PipeWrites(StandardProcess.ProcessData(ProcessMessage, read))
         == if TruthyRead(read) then [Tag() + read.value] else []
  {
  }
}

=== FILE: handshake.dfy ===
/** The one-shot message a TCP worker bound to port 0 writes to its pipe:
    `json_encode(['port' => $port])`, a JSON object (section 4 of RFC 8259)
    whose single member `port` holds the assigned port as a JSON integer. */
module Handshake {

  import opened Results
  import opened ByteStrings
  import opened Decimal

  /** The text before the number: `{"port":`. */
  function Opening(): (b: Bytes)
    ensures |b| == 8
  {
    Ascii("{\"port\":")
  }

  const CloseBrace: byte := 125

  /** The handshake text for `port`, as `json_encode` prints it. */
  function Encode(port: int): (m: Bytes)
    ensures IsPrefix(Opening(), m) && m[|m| - 1] == CloseBrace
    ensures |m| >= 10
  {
    Opening() + IntToDecimal(port) + [CloseBrace]
  }

  /** Reading a handshake back: the object with the single member `port`
      holding an integer, written without insignificant whitespace. */
  function Decode(m: Bytes): (r: Option<int>)
    ensures r.Some? ==> IsPrefix(Opening(), m) && m[|m| - 1] == CloseBrace
  {
    if |m| >= 10 && m[..8] == Opening() && m[|m| - 1] == CloseBrace then ParseInt(m[8..|m| - 1])
    else None
  }

  /** A reader of the pipe gets back exactly the port the worker reported. */
  lemma DecodeEncode(port: int)
    ensures Decode(Encode(port)) == Some(port)
  {
    var m := Encode(port);
    assert m[..8] == Opening();
    assert m[8..|m| - 1] == IntToDecimal(port);
    IntToDecimalRoundTrip(port);
  }
}

=== FILE: httpproxy.dfy ===
/** The example HTTP proxy handler: a TCP worker whose message handler
    parses the text it receives as an HTTP/1.x request and answers with a
    fixed-shape JSON response naming the request's method and path. */
module HttpProxy {
  import opened Results
  import opened ByteStrings
  import opened Decimal
  import opened PhpString

  /** What the parser extracts: the three request-line fields, the headers
      (a later line with the same name wins) and the body. */
  datatype Request = Request(verb: Bytes, path: Bytes, version: Bytes, headers: map<Bytes, Bytes>, body: Bytes)

  function DefaultPath(): Bytes { Ascii("/") }
  function DefaultVersion(): Bytes { Ascii("HTTP/1.1") }

  /** A header line's name and value: the line is split at its first colon
      and both halves are trimmed; a line without a colon is skipped. */
  function HeaderField(line: Bytes): (r: Option<(Bytes, Bytes)>)
    ensures r.None? <==> COLON !in line
  {
    ContainsByte(line, COLON);
    var parts := ExplodeOnce([COLON], line);
    if |parts| == 2 then Some((Trim(parts[0]), Trim(parts[1]))) else None
  }

  /** A header line splits at its first colon, and the name and value are
      the trimmed text before and after it. */
  lemma HeaderFieldSplit(line: Bytes)
    requires COLON in line
    ensures exists i :: 0 <= i < |line| && line[i] == COLON && COLON !in line[..i]
                        && HeaderField(line) == Some((Trim(line[..i]), Trim(line[i + 1..])))
  {
    ContainsByte(line, COLON);
    var parts := ExplodeOnce([COLON], line);
    ContainsByte(parts[0], COLON);
    var i := |parts[0]|;
    assert line[i] == COLON && line[..i] == parts[0] && line[i + 1..] == parts[1];
  }

  /** A header line's parse, or `None` for a line that is skipped. */
  type Field = Option<(Bytes, Bytes)>

  /** The field sets header `k`. */
  predicate Names(f: Field, k: Bytes) {
    f.Some? && f.value.0 == k
  }

  /** The header map built from `fields` in order, each one setting its
      name to its value. */
  function Collect(fields: seq<Field>): (h: map<Bytes, Bytes>)
    ensures fields != [] && fields[|fields| - 1].Some? ==>
              fields[|fields| - 1].value.0 in h && h[fields[|fields| - 1].value.0] == fields[|fields| - 1].value.1
    decreases |fields|
  {
    if fields == [] then map[]
    else
      var h := Collect(fields[..|fields| - 1]);
      match fields[|fields| - 1]
      case None => h
      case Some(f) => h[f.0 := f.1]
  }

  /** The parse of each line. */
  function Fields(lines: seq<Bytes>): (fs: seq<Field>)
    ensures |fs| == |lines|
    decreases |lines|
  {
    if lines == [] then [] else [HeaderField(lines[0])] + Fields(lines[1..])
  }

  /** The header map of the given lines. */
  function CollectHeaders(lines: seq<Bytes>): (h: map<Bytes, Bytes>) {
    Collect(Fields(lines))
  }

  /** A name is in the header map exactly when some field sets it. */
  lemma {:induction false} CollectNames(fields: seq<Field>, k: Bytes)
    ensures k in Collect(fields) <==> exists i :: 0 <= i < |fields| && Names(fields[i], k)
    decreases |fields|
  {
    if fields != [] {
      var n := |fields| - 1;
      var init := fields[..n];
      CollectNames(init, k);
      assert forall i :: 0 <= i < n ==> init[i] == fields[i];
    }
  }

  /** When a name repeats, the later field wins: the map holds the value of
      a field setting `k` that no later field sets again. */
  lemma {:induction false} CollectLastWins(fields: seq<Field>, k: Bytes)
    requires k in Collect(fields)
    ensures exists i :: 0 <= i < |fields| && fields[i] == Some((k, Collect(fields)[k]))
                        && forall j :: i < j < |fields| ==> !Names(fields[j], k)
    decreases |fields|
  {
    var n := |fields| - 1;
    var init := fields[..n];
    if Names(fields[n], k) {
      assert fields[n] == Some((k, Collect(fields)[k]));
    } else {
      CollectLastWins(init, k);
      var i :| 0 <= i < |init| && init[i] == Some((k, Collect(init)[k]))
                && forall j :: i < j < |init| ==> !Names(init[j], k);
      assert init[i] == fields[i];
      assert forall j :: i < j < n ==> init[j] == fields[j];
    }
  }

  /** The index of the first empty line at or after `i`, or `|lines|` when
      there is none: where the header block ends. */
  function HeaderEnd(lines: seq<Bytes>, i: nat): (k: nat)
    requires i <= |lines|
    ensures i <= k <= |lines|
    ensures forall j :: i <= j < k ==> lines[j] != []
    ensures k < |lines| ==> lines[k] == []
    decreases |lines| - i
  {
    if i == |lines| || lines[i] == [] then i else HeaderEnd(lines, i + 1)
  }

  /** The handler's request parser: lines are split on CRLF, the first line
      on spaces; the header block runs to the first empty line; the body is
      everything after that empty line, rejoined with CRLF. */
  function ParseHttpRequest(data: Bytes): (r: Request)
    ensures data == [] ==> r == Request([], DefaultPath(), DefaultVersion(), map[], [])
  {
    var lines := Explode(CRLF, data);
    var first := Explode([SP], lines[0]);
    var end := HeaderEnd(lines, 1);
    var body := if end + 1 < |lines| then Implode(CRLF, lines[end + 1..]) else [];
    Request(first[0],
            if |first| >= 2 then first[1] else DefaultPath(),
            if |first| >= 3 then first[2] else DefaultVersion(),
            CollectHeaders(lines[1..end]),
            body)
  }

  /** The method (`verb`) is the input's first token: a prefix of the input with no
      space and no CRLF in it, ending at a space, a CRLF or the end. */
  lemma MethodIsFirstToken(data: Bytes)
    ensures var m := ParseHttpRequest(data).verb;
      IsPrefix(m, data) && SP !in m && !Contains(m, CRLF)
      && (|m| == |data| || data[|m|] == SP || OccursAt(data, CRLF, |m|))
  {
    var l := Explode(CRLF, data)[0];
    ExplodeFirst(CRLF, data);
    ExplodeFirst([SP], l);
    var m := Explode([SP], l)[0];
    ContainsByte(m, SP);
    PrefixNoCrlf(m, l);
    TokenEnd(data, l, m);
  }

  /** A prefix of CRLF-free text is CRLF-free. */
  lemma PrefixNoCrlf(m: Bytes, l: Bytes)
    requires IsPrefix(m, l) && !Contains(l, CRLF)
    ensures !Contains(m, CRLF)
  {
    forall j | 0 <= j <= |m| - 2
      ensures !OccursAt(m, CRLF, j)
    {
      assert l[j..j + 2] == m[j..j + 2];
      assert !OccursAt(l, CRLF, j);
    }
  }

  /** The first token of the first line ends where the input ends, at a
      space, or at a CRLF. */
  lemma TokenEnd(data: Bytes, l: Bytes, m: Bytes)
    requires IsPrefix(l, data) && (|l| == |data| || OccursAt(data, CRLF, |l|))
    requires IsPrefix(m, l) && (|m| == |l| || OccursAt(l, [SP], |m|))
    ensures IsPrefix(m, data)
    ensures |m| == |data| || data[|m|] == SP || OccursAt(data, CRLF, |m|)
  {
    assert data[..|m|] == l[..|m|];
    if |m| < |l| {
      assert l[|m|..|m| + 1][0] == l[|m|] == data[|m|];
    }
  }

  /** The bytes of an HTTP message with the given start line, header lines
      and body: each line ends in CRLF, an empty line ends the headers. */
  function Message(start: Bytes, headerLines: seq<Bytes>, body: Bytes): Bytes {
    Implode(CRLF, [start] + headerLines + [[]]) + CRLF + body
  }

  /** The header block of `lines` starting at 1 ends at the first empty line. */
  lemma HeaderEndAt(lines: seq<Bytes>, k: nat)
    requires 1 <= k < |lines| && lines[k] == []
    requires forall j :: 1 <= j < k ==> lines[j] != []
    ensures HeaderEnd(lines, 1) == k
  {
  }

  /** Text that fits on one line of a message: it holds no CRLF (a lone CR
      or LF is allowed). */
  predicate OneLine(s: Bytes) {
    !Contains(s, CRLF)
  }

  /** The lines of a message: its start line, its header lines, the empty
      line, then the lines of the body. */
  lemma MessageLines(start: Bytes, headerLines: seq<Bytes>, body: Bytes)
    requires OneLine(start)
    requires forall i :: 0 <= i < |headerLines| ==> OneLine(headerLines[i])
    ensures Explode(CRLF, Message(start, headerLines, body)) == [start] + headerLines + [[]] + Explode(CRLF, body)
  {
    var parts := [start] + headerLines + [[]];
    forall i | 0 <= i < |parts|
      ensures Separable(parts[i], CRLF)
    {
      CrlfSeparable(parts[i]);
    }
    ExplodeAfterParts(CRLF, parts, body);
  }

  /** A request line joined from space-free fields splits back into them. */
  lemma RequestLineFields(fields: seq<Bytes>)
    requires |fields| >= 1
    requires forall i :: 0 <= i < |fields| ==> SP !in fields[i] && OneLine(fields[i])
    ensures Explode([SP], Implode([SP], fields)) == fields
    ensures OneLine(Implode([SP], fields))
  {
    ImplodeNoCrlf(fields);
    forall i | 0 <= i < |fields|
      ensures Separable(fields[i], [SP])
    {
      ContainsByte(fields[i], SP);
    }
    ExplodeImplode([SP], fields);
  }

  /** Input whose lines are a start line, header lines, an empty line and
      any further lines parses into the start line's fields, the header
      lines' map and the further lines rejoined (no body when the input ends
      with the empty line). */
  lemma ParseShape(data: Bytes, start: Bytes, headerLines: seq<Bytes>, rest: seq<Bytes>)
    requires Explode(CRLF, data) == [start] + headerLines + [[]] + rest
    requires forall i :: 0 <= i < |headerLines| ==> headerLines[i] != []
    ensures var first := Explode([SP], start);
      ParseHttpRequest(data) == Request(first[0],
                                        if |first| >= 2 then first[1] else DefaultPath(),
                                        if |first| >= 3 then first[2] else DefaultVersion(),
                                        CollectHeaders(headerLines),
                                        Implode(CRLF, rest))
  {
    var lines := Explode(CRLF, data);
    var end := |headerLines| + 1;
    HeaderEndAt(lines, end);
    assert lines[0] == start;
    assert lines[1..end] == headerLines;
    assert lines[end + 1..] == rest;
  }

  /** A well-formed message parses back into its request-line fields, its
      headers and exactly its body, whatever bytes the body holds. */
  lemma ParseMessage(fields: seq<Bytes>, headerLines: seq<Bytes>, body: Bytes)
    requires |fields| >= 1
    requires forall i :: 0 <= i < |fields| ==> SP !in fields[i] && OneLine(fields[i])
    requires forall i :: 0 <= i < |headerLines| ==> headerLines[i] != [] && OneLine(headerLines[i])
    ensures var r := ParseHttpRequest(Message(Implode([SP], fields), headerLines, body));
      && r.verb == fields[0]
      && r.path == (if |fields| >= 2 then fields[1] else DefaultPath())
      && r.version == (if |fields| >= 3 then fields[2] else DefaultVersion())
      && r.headers == CollectHeaders(headerLines)
      && r.body == body
  {
    var start := Implode([SP], fields);
    RequestLineFields(fields);
    MessageLines(start, headerLines, body);
    ParseShape(Message(start, headerLines, body), start, headerLines, Explode(CRLF, body));
    ImplodeExplode(CRLF, body);
  }

  /** Without the empty line that ends the headers, every line after the
      first is a header line and the body is empty. */
  lemma ParseUnterminated(fields: seq<Bytes>, headerLines: seq<Bytes>)
    requires |fields| >= 1
    requires forall i :: 0 <= i < |fields| ==> SP !in fields[i] && OneLine(fields[i])
    requires forall i :: 0 <= i < |headerLines| ==> headerLines[i] != [] && OneLine(headerLines[i])
    ensures var r := ParseHttpRequest(Implode(CRLF, [Implode([SP], fields)] + headerLines));
      && r.verb == fields[0]
      && r.headers == CollectHeaders(headerLines)
      && r.body == []
  {
    var start := Implode([SP], fields);
    ImplodeNoCrlf(fields);
    var lines := [start] + headerLines;
    forall i | 0 <= i < |lines|
      ensures Separable(lines[i], CRLF)
    {
      CrlfSeparable(lines[i]);
    }
    ExplodeImplode(CRLF, lines);
    forall i | 0 <= i < |fields|
      ensures Separable(fields[i], [SP])
    {
      ContainsByte(fields[i], SP);
    }
    ExplodeImplode([SP], fields);
    assert HeaderEnd(lines, 1) == |lines|;
    assert lines[1..|lines|] == headerLines;
  }

  /** `name: value` as a header line. */
  function HeaderLine(name: Bytes, value: Bytes): Bytes {
    name + [COLON, SP] + value
  }

  /** A header line built from a colon-free name and a value, neither padded
      with strippable bytes, reads back as that name and value. */
  lemma HeaderLineField(name: Bytes, value: Bytes)
    requires COLON !in name
    requires name != [] ==> !IsTrimmed(name[0]) && !IsTrimmed(name[|name| - 1])
    requires value != [] ==> !IsTrimmed(value[0]) && !IsTrimmed(value[|value| - 1])
    ensures HeaderField(HeaderLine(name, value)) == Some((name, value))
  {
    var line := HeaderLine(name, value);
    assert line == name + [COLON] + ([SP] + value);
    FirstColon(name, [SP] + value);
    TrimUnpadded(name);
    TrimAfterSpace(value);
  }

  /** Splitting at the first colon finds the colon right after a colon-free name. */
  lemma FirstColon(name: Bytes, rest: Bytes)
    requires COLON !in name
    ensures ExplodeOnce([COLON], name + [COLON] + rest) == [name, rest]
  {
    var line := name + [COLON] + rest;
    ContainsByte(line, COLON);
    var parts := ExplodeOnce([COLON], line);
    ContainsByte(parts[0], COLON);
    var n := |parts[0]|;
    assert forall j :: 0 <= j < n ==> line[j] == parts[0][j];
    FirstIndexUnique(line, n, |name|);
    assert parts[0] == line[..n] == name;
    assert parts[1] == line[n + 1..] == rest;
  }

  /** Two positions both holding the first colon of a line are the same. */
  lemma FirstIndexUnique(line: Bytes, a: nat, b: nat)
    requires a < |line| && b < |line| && line[a] == COLON && line[b] == COLON
    requires forall j :: 0 <= j < a ==> line[j] != COLON
    requires forall j :: 0 <= j < b ==> line[j] != COLON
    ensures a == b
  {
  }

  /** The fields of two header lines. */
  lemma FieldsTwo(a: Bytes, b: Bytes)
    ensures Fields([a, b]) == [HeaderField(a), HeaderField(b)]
  {
    assert [a, b][1..] == [b];
    assert [b][1..] == [];
    assert Fields([b]) == [HeaderField(b)];
  }

  /** The reply's status line: the version, the status code and the reason. */
  function StatusFields(): seq<Bytes> { [DefaultVersion(), Ascii("200"), Ascii("OK")] }
  function StatusLine(): Bytes { Implode([SP], StatusFields()) }
  function ContentTypeName(): Bytes { Ascii("Content-Type") }
  function ContentLengthName(): Bytes { Ascii("Content-Length") }
  function JsonType(): Bytes { Ascii("application/json") }

  /** The handler's reply around a JSON body: a 200 status line, the JSON
      content type, the body's length in decimal, an empty line, the body. */
  function Response(body: Bytes): (r: Bytes)
    ensures |r| > |body| && r[|r| - |body|..] == body
  {
    StatusLine() + CRLF
      + ContentTypeName() + [COLON, SP] + JsonType() + CRLF
      + ContentLengthName() + [COLON, SP] + NatToDecimal(|body|) + CRLF
      + CRLF
      + body
  }

  /** The reply is a well-formed message with two header lines. */
  lemma ResponseIsMessage(body: Bytes)
    ensures Response(body) == Message(StatusLine(),
                                      [HeaderLine(ContentTypeName(), JsonType()),
                                       HeaderLine(ContentLengthName(), NatToDecimal(|body|))],
                                      body)
  {
    TwoHeaderMessage(StatusLine(), ContentTypeName(), JsonType(), ContentLengthName(), NatToDecimal(|body|), body);
  }

  /** A message with two header lines, written out byte run by byte run. */
  lemma TwoHeaderMessage(start: Bytes, n1: Bytes, v1: Bytes, n2: Bytes, v2: Bytes, body: Bytes)
    ensures start + CRLF + n1 + [COLON, SP] + v1 + CRLF + n2 + [COLON, SP] + v2 + CRLF + CRLF + body
         == Message(start, [HeaderLine(n1, v1), HeaderLine(n2, v2)], body)
  {
    var ct := HeaderLine(n1, v1);
    var cl := HeaderLine(n2, v2);
    assert [start] + [ct, cl] + [[]] == [start, ct, cl, []];
    ThreeLines(start, ct, cl);
    TwoHeaderLayout(start, CRLF, n1, [COLON, SP], v1, n2, v2, body);
  }

  /** Three lines followed by an empty one, joined with CRLF. */
  lemma ThreeLines(a: Bytes, b: Bytes, c: Bytes)
    ensures Implode(CRLF, [a, b, c, []]) == a + CRLF + (b + CRLF + (c + CRLF + []))
  {
    assert [a, b, c, []][1..] == [b, c, []];
    assert [b, c, []][1..] == [c, []];
    assert [c, []][1..] == [[]];
    assert Implode(CRLF, [c, []]) == c + CRLF + [];
    assert Implode(CRLF, [b, c, []]) == b + CRLF + Implode(CRLF, [c, []]);
  }

  /** Regrouping the concatenation of a message with two header lines. */
  lemma TwoHeaderLayout(start: Bytes, eol: Bytes, n1: Bytes, sep: Bytes, v1: Bytes, n2: Bytes, v2: Bytes, body: Bytes)
    ensures start + eol + ((n1 + sep + v1) + eol + ((n2 + sep + v2) + eol + [])) + eol + body
         == start + eol + n1 + sep + v1 + eol + n2 + sep + v2 + eol + eol + body
  {
  }

  /** Decimal digits are never stripped by `trim`. */
  lemma DigitsUntrimmed(s: Bytes)
    requires Canonical(s)
    ensures !IsTrimmed(s[0]) && !IsTrimmed(s[|s| - 1]) && OneLine(s)
  {
    NoCrNoCrlf(s);
  }

  /** A header name or value that survives `trim` and fits on one line. */
  predicate PlainText(s: Bytes) {
    OneLine(s) && (s != [] ==> !IsTrimmed(s[0]) && !IsTrimmed(s[|s| - 1]))
  }

  /** A header line built from one-line parts is one line. */
  lemma HeaderLineOneLine(name: Bytes, value: Bytes)
    requires OneLine(name) && OneLine(value)
    ensures OneLine(HeaderLine(name, value))
  {
    NoCrNoCrlf([COLON, SP]);
    JoinNoCrlf(name, [COLON, SP]);
    JoinNoCrlf(name + [COLON, SP], value);
  }

  /** A message with two distinct headers parses into exactly those two. */
  lemma ParseTwoHeaders(fields: seq<Bytes>, n1: Bytes, v1: Bytes, n2: Bytes, v2: Bytes, body: Bytes)
    requires |fields| >= 1
    requires forall i :: 0 <= i < |fields| ==> SP !in fields[i] && OneLine(fields[i])
    requires COLON !in n1 && COLON !in n2 && n1 != n2
    requires PlainText(n1) && PlainText(v1) && PlainText(n2) && PlainText(v2)
    ensures var r := ParseHttpRequest(Message(Implode([SP], fields), [HeaderLine(n1, v1), HeaderLine(n2, v2)], body));
      && r.verb == fields[0]
      && r.path == (if |fields| >= 2 then fields[1] else DefaultPath())
      && r.version == (if |fields| >= 3 then fields[2] else DefaultVersion())
      && r.headers == map[n1 := v1, n2 := v2]
      && r.body == body
  {
    var h1 := HeaderLine(n1, v1);
    var h2 := HeaderLine(n2, v2);
    HeaderLineOneLine(n1, v1);
    HeaderLineOneLine(n2, v2);
    forall i | 0 <= i < 2
      ensures [h1, h2][i] != [] && OneLine([h1, h2][i])
    {
      if i == 0 { assert [h1, h2][i] == h1; } else { assert [h1, h2][i] == h2; }
    }
    ParseMessage(fields, [h1, h2], body);
    HeaderLineField(n1, v1);
    HeaderLineField(n2, v2);
    FieldsTwo(h1, h2);
    CollectTwoFields((n1, v1), (n2, v2));
  }

  /** The header map of two fields that both set a header. */
  lemma CollectTwoFields(f: (Bytes, Bytes), g: (Bytes, Bytes))
    ensures Collect([Some(f), Some(g)]) == map[f.0 := f.1][g.0 := g.1]
  {
    assert [Some(f), Some(g)][..1] == [Some(f)];
    assert [Some(f)][..0] == [];
    assert Collect([Some(f)]) == Collect([])[f.0 := f.1];
    assert Collect([Some(f), Some(g)]) == Collect([Some(f)])[g.0 := g.1];
  }

  /** The reply parses back: its status fields, exactly two headers, the
      body unchanged, and a Content-Length whose value is the body's length. */
  lemma ResponseParses(body: Bytes)
    ensures var r := ParseHttpRequest(Response(body));
      && [r.verb, r.path, r.version] == StatusFields()
      && r.headers == map[ContentTypeName() := JsonType(), ContentLengthName() := NatToDecimal(|body|)]
      && r.body == body
      && AllDigits(r.headers[ContentLengthName()])
      && DigitsValue(r.headers[ContentLengthName()]) == |body|
  {
    var len := NatToDecimal(|body|);
    DigitsUntrimmed(len);
    ResponseIsMessage(body);
    ResponseLiterals();
    ParseTwoHeaders(StatusFields(), ContentTypeName(), JsonType(), ContentLengthName(), len, body);
    NatToDecimalRoundTrip(|body|);
  }

  /** The fixed parts of the reply are single-line, space-free where they
      are request-line fields, and untouched by `trim`. */
  lemma ResponseLiterals()
    ensures forall i :: 0 <= i < |StatusFields()| ==> SP !in StatusFields()[i] && OneLine(StatusFields()[i])
    ensures COLON !in ContentTypeName() && COLON !in ContentLengthName()
    ensures ContentTypeName() != ContentLengthName()
    ensures PlainText(ContentTypeName()) && PlainText(JsonType()) && PlainText(ContentLengthName())
  {
    StatusFieldsPlain();
    HeaderNamesPlain();
  }

  lemma StatusFieldsPlain()
    ensures forall i :: 0 <= i < |StatusFields()| ==> SP !in StatusFields()[i] && OneLine(StatusFields()[i])
  {
    forall i | 0 <= i < |StatusFields()|
      ensures OneLine(StatusFields()[i])
    {
      NoCrNoCrlf(StatusFields()[i]);
    }
  }

  lemma HeaderNamesPlain()
    ensures COLON !in ContentTypeName() && COLON !in ContentLengthName()
    ensures ContentTypeName() != ContentLengthName()
    ensures PlainText(ContentTypeName()) && PlainText(JsonType()) && PlainText(ContentLengthName())
  {
    assert ContentTypeName()[8] != ContentLengthName()[8];
    TypeNamePlain();
    LengthNamePlain();
  }

  lemma TypeNamePlain()
    ensures COLON !in ContentTypeName() && PlainText(ContentTypeName()) && PlainText(JsonType())
  {
    NoCrNoCrlf(ContentTypeName());
    NoCrNoCrlf(JsonType());
  }

  lemma LengthNamePlain()
    ensures COLON !in ContentLengthName() && PlainText(ContentLengthName())
  {
    NoCrNoCrlf(ContentLengthName());
  }

  /** `json_encode` of the reply's array, as an oracle over the two request
      fields the array includes; `None` stands for `false`, the result when
      encoding fails. */
  type Encoder = (Bytes, Bytes) -> Option<Bytes>

  /** The body the reply carries: the encoding, or `""` when it failed. */
  function JsonBody(encoded: Option<Bytes>): Bytes {
    match encoded
    case Some(j) => j
    case None => []
  }

  /** The proxy's message handler: parse, encode the method and path, reply.
      It always has a reply. */
  function ProcessMessage(encode: Encoder, data: Bytes): (r: Option<Bytes>)
    ensures r.Some?
  {
    var request := ParseHttpRequest(data);
    Some(Response(JsonBody(encode(request.verb, request.path))))
  }

  /** Whatever arrives, the reply parses as a 200 response whose
      Content-Length matches the length of the body that follows, and that
      body is the encoding of the request's method and path. */
  lemma ProxyReplyConsistent(encode: Encoder, data: Bytes)
    ensures var request := ParseHttpRequest(data);
      var reply := ParseHttpRequest(ProcessMessage(encode, data).value);
      && reply.path == Ascii("200")
      && reply.body == JsonBody(encode(request.verb, request.path))
      && ContentLengthName() in reply.headers
      && AllDigits(reply.headers[ContentLengthName()])
      && DigitsValue(reply.headers[ContentLengthName()]) == |reply.body|
  {
    var request := ParseHttpRequest(data);
    ResponseParses(JsonBody(encode(request.verb, request.path)));
  }

  /** A message with one header line, written out byte run by byte run. */
  lemma OneHeaderMessage(start: Bytes, n: Bytes, v: Bytes, body: Bytes)
    ensures start + CRLF + n + [COLON, SP] + v + CRLF + CRLF + body
         == Message(start, [HeaderLine(n, v)], body)
  {
    var h := HeaderLine(n, v);
    assert [start] + [h] + [[]] == [start, h, []];
    assert [start, h, []][1..] == [h, []];
    assert [h, []][1..] == [[]];
    assert Implode(CRLF, [h, []]) == h + CRLF + [];
  }

  /** Three request-line fields joined with spaces. */
  lemma JoinThree(a: Bytes, b: Bytes, c: Bytes)
    ensures Implode([SP], [a, b, c]) == a + [SP] + b + [SP] + c
  {
    assert [a, b, c][1..] == [b, c];
    assert [b, c][1..] == [c];
    assert Implode([SP], [b, c]) == b + [SP] + c;
  }

  /** A message with a single header parses into exactly that header. */
  lemma ParseOneHeader(fields: seq<Bytes>, n: Bytes, v: Bytes, body: Bytes)
    requires |fields| >= 1
    requires forall i :: 0 <= i < |fields| ==> SP !in fields[i] && OneLine(fields[i])
    requires COLON !in n && PlainText(n) && PlainText(v)
    ensures var r := ParseHttpRequest(Message(Implode([SP], fields), [HeaderLine(n, v)], body));
      && r.verb == fields[0]
      && r.path == (if |fields| >= 2 then fields[1] else DefaultPath())
      && r.version == (if |fields| >= 3 then fields[2] else DefaultVersion())
      && r.headers == map[n := v]
      && r.body == body
  {
    var h := HeaderLine(n, v);
    HeaderLineOneLine(n, v);
    forall i | 0 <= i < 1
      ensures [h][i] != [] && OneLine([h][i])
    {
      assert [h][i] == h;
    }
    ParseMessage(fields, [h], body);
    HeaderLineField(n, v);
    FieldsOne(h);
    CollectOneField((n, v));
  }

  lemma FieldsOne(a: Bytes)
    ensures Fields([a]) == [HeaderField(a)]
  {
    assert [a][1..] == [];
  }

  lemma CollectOneField(f: (Bytes, Bytes))
    ensures Collect([Some(f)]) == map[f.0 := f.1]
  {
    assert [Some(f)][..0] == [];
    assert Collect([Some(f)]) == Collect([])[f.0 := f.1];
  }

  function ExampleFields(): seq<Bytes> { [Ascii("GET"), Ascii("/test"), Ascii("HTTP/1.1")] }

  /** The request line and header of the example request are plain text. */
  lemma ExampleLiterals()
    ensures forall i :: 0 <= i < |ExampleFields()| ==> SP !in ExampleFields()[i] && OneLine(ExampleFields()[i])
    ensures COLON !in Ascii("Host") && PlainText(Ascii("Host")) && PlainText(Ascii("localhost"))
  {
    ExampleFieldsPlain();
    ExampleHeaderPlain();
  }

  lemma ExampleFieldsPlain()
    ensures forall i :: 0 <= i < |ExampleFields()| ==> SP !in ExampleFields()[i] && OneLine(ExampleFields()[i])
  {
    forall i | 0 <= i < |ExampleFields()|
      ensures OneLine(ExampleFields()[i])
    {
      NoCrNoCrlf(ExampleFields()[i]);
    }
  }

  lemma ExampleHeaderPlain()
    ensures COLON !in Ascii("Host") && PlainText(Ascii("Host")) && PlainText(Ascii("localhost"))
  {
    NoCrNoCrlf(Ascii("Host"));
    NoCrNoCrlf(Ascii("localhost"));
  }

  /** The parser on `GET /test HTTP/1.1`, one `Host: localhost` header and
      no body. */
  lemma GetRequestExample()
    ensures ParseHttpRequest(Ascii("GET") + [SP] + Ascii("/test") + [SP] + Ascii("HTTP/1.1") + CRLF
                             + Ascii("Host") + [COLON, SP] + Ascii("localhost") + CRLF
                             + CRLF)
      == Request(Ascii("GET"), Ascii("/test"), Ascii("HTTP/1.1"), map[Ascii("Host") := Ascii("localhost")], [])
  {
    var fields := ExampleFields();
    var start := Ascii("GET") + [SP] + Ascii("/test") + [SP] + Ascii("HTTP/1.1");
    JoinThree(Ascii("GET"), Ascii("/test"), Ascii("HTTP/1.1"));
    OneHeaderMessage(start, Ascii("Host"), Ascii("localhost"), []);
    assert start + CRLF + Ascii("Host") + [COLON, SP] + Ascii("localhost") + CRLF + CRLF + []
        == start + CRLF + Ascii("Host") + [COLON, SP] + Ascii("localhost") + CRLF + CRLF;
    ExampleLiterals();
    ParseOneHeader(fields, Ascii("Host"), Ascii("localhost"), []);
  }
}

=== FILE: logger.dfy ===
/** The example Unix-socket worker that appends each message to a log file
    and answers with a bounded preview of it. */
module LoggerProcess {

  import opened Results
  import opened ByteStrings
  import opened PhpString
  import opened PhpValues

  /** How many bytes of the message the reply quotes. */
  const PreviewLength: nat := 30

  function Tag(): Bytes { Ascii("Logged: ") }
  function Ellipsis(): Bytes { Ascii("...") }
  function DefaultLogFile(): Bytes { Ascii("/tmp/process.log") }

  /** The reply: the tag, the first 30 bytes of the message, and `...` when
      the message was longer than that. */
  function Reply(data: Bytes): (r: Bytes)
    ensures IsPrefix(Tag(), r)
    ensures |data| <= PreviewLength ==> r == Tag() + data
    ensures |data| > PreviewLength ==> r == Tag() + data[..PreviewLength] + Ellipsis()
    ensures |r| <= |Tag()| + PreviewLength + |Ellipsis()|
  {
    Tag() + Prefix(data, PreviewLength) + (if |data| > PreviewLength then Ellipsis() else [])
  }

  /** `processMessage`: always a reply. */
  function ProcessMessage(data: Bytes): (r: Option<Bytes>)
    ensures r.Some? && IsPrefix(Tag(), r.value)
  {
    Some(Reply(data))
  }

  /** Two messages get the same reply exactly when both are short and equal,
      or both are long and agree on their first 30 bytes. */
  lemma SameReply(a: Bytes, b: Bytes)
    ensures Reply(a) == Reply(b) <==>
      (|a| <= PreviewLength && |b| <= PreviewLength && a == b)
      || (|a| > PreviewLength && |b| > PreviewLength && a[..PreviewLength] == b[..PreviewLength])
  {
    var t := |Tag()|;
    if Reply(a) == Reply(b) {
      if |a| <= PreviewLength && |b| <= PreviewLength {
        assert a == Reply(a)[t..];
        assert b == Reply(b)[t..];
      } else if |a| > PreviewLength && |b| > PreviewLength {
        assert a[..PreviewLength] == Reply(a)[t..t + PreviewLength];
        assert b[..PreviewLength] == Reply(b)[t..t + PreviewLength];
      }
    }
  }

  /** The log file: `args['log_file'] ?? '/tmp/process.log'`, whatever
      value the argument holds. */
  function LogFile(args: PhpArray): (v: Value)
    ensures Coalesce(args, Ascii("log_file")).None? ==> v == Str(DefaultLogFile())
    ensures Coalesce(args, Ascii("log_file")).Some? ==> v == args[Ascii("log_file")]
  {
    match Coalesce(args, Ascii("log_file"))
    case None => Str(DefaultLogFile())
    case Some(v) => v
  }

  /** The line appended to the log file: the timestamp text `date` produced,
      the message, and a newline. */
  function LogLine(stamp: Bytes, data: Bytes): (line: Bytes)
    ensures |line| == |stamp| + |data| + 1
    ensures IsPrefix(stamp, line) && line[|stamp|..|line| - 1] == data && line[|line| - 1] == LF
  {
    stamp + data + [LF]
  }
}

=== FILE: phpstring.dfy ===
/** The PHP string functions the handlers use: `explode`, `implode`,
    `trim` and `substr` from the start, over byte strings. */
module PhpString {

  import opened Results
  import opened ByteStrings

  /** The first position at or after `k` where `d` occurs in `s`. */
  function FindFrom(s: Bytes, d: Bytes, k: nat): (r: Option<nat>)
    requires |d| > 0
    ensures r.Some? ==> k <= r.value && OccursAt(s, d, r.value)
    decreases |s| - k
  {
    if k + |d| > |s| then None
    else if s[k..k + |d|] == d then Some(k)
    else FindFrom(s, d, k + 1)
  }

  /** `FindFrom` finds the first occurrence, and misses none. */
  lemma {:induction false} FindFromFirst(s: Bytes, d: Bytes, k: nat)
    requires |d| > 0
    ensures FindFrom(s, d, k).Some? ==> forall j :: k <= j < FindFrom(s, d, k).value ==> !OccursAt(s, d, j)
    ensures FindFrom(s, d, k).None? ==> forall j :: k <= j ==> !OccursAt(s, d, j)
    decreases |s| - k
  {
    if k + |d| <= |s| && s[k..k + |d|] != d {
      FindFromFirst(s, d, k + 1);
    }
  }

  /** `explode(d, s)`: the pieces of `s` between the occurrences of `d`,
      scanning left to right. */
  function Explode(d: Bytes, s: Bytes): (parts: seq<Bytes>)
    requires |d| > 0
    ensures |parts| >= 1
    decreases |s|
  {
    match FindFrom(s, d, 0)
    case None => [s]
    case Some(i) => [s[..i]] + Explode(d, s[i + |d|..])
  }

  /** `implode(d, parts)`: the pieces joined with `d` between neighbours. */
  function Implode(d: Bytes, parts: seq<Bytes>): (s: Bytes)
    decreases |parts|
  {
    if parts == [] then []
    else if |parts| == 1 then parts[0]
    else parts[0] + d + Implode(d, parts[1..])
  }

  /** Joining the pieces of `explode` with the same delimiter restores the string. */
  lemma {:induction false} ImplodeExplode(d: Bytes, s: Bytes)
    requires |d| > 0
    ensures Implode(d, Explode(d, s)) == s
    decreases |s|
  {
    match FindFrom(s, d, 0)
    case None =>
      assert Explode(d, s) == [s];
    case Some(i) =>
      var rest := s[i + |d|..];
      var tail := Explode(d, rest);
      assert Explode(d, s) == [s[..i]] + tail;
      calc {
        Implode(d, [s[..i]] + tail);
        { ImplodeCons(d, s[..i], tail); }
        s[..i] + d + Implode(d, tail);
        { ImplodeExplode(d, rest); }
        s[..i] + d + rest;
        { SplitAround(s, d, i); }
        s;
      }
  }

  lemma SplitAround(s: Bytes, d: Bytes, i: nat)
    requires OccursAt(s, d, i)
    ensures s == s[..i] + d + s[i + |d|..]
  {
  }

  lemma ImplodeCons(d: Bytes, x: Bytes, tail: seq<Bytes>)
    requires |tail| >= 1
    ensures Implode(d, [x] + tail) == x + d + Implode(d, tail)
  {
    assert ([x] + tail)[1..] == tail;
  }

  /** A piece that can stand before the delimiter without a spurious
      match: no occurrence of `d` starts inside `p`, even when `d` follows. */
  predicate Separable(p: Bytes, d: Bytes)
    requires |d| > 0
  {
    !Contains(p + d[..|d| - 1], d)
  }

  lemma SeparableHasNoDelimiter(p: Bytes, d: Bytes)
    requires |d| > 0 && Separable(p, d)
    ensures !Contains(p, d)
  {
    var q := p + d[..|d| - 1];
    forall i | 0 <= i <= |p| - |d|
      ensures !OccursAt(p, d, i)
    {
      assert q[i..i + |d|] == p[i..i + |d|];
      assert !OccursAt(q, d, i);
    }
  }

  lemma ExplodeWhole(d: Bytes, p: Bytes)
    requires |d| > 0 && !Contains(p, d)
    ensures Explode(d, p) == [p]
  {
    FindFromFirst(p, d, 0);
  }

  /** A separable first piece is split off at the delimiter that follows it. */
  lemma ExplodeCons(d: Bytes, p: Bytes, rest: Bytes)
    requires |d| > 0 && Separable(p, d)
    ensures Explode(d, p + d + rest) == [p] + Explode(d, rest)
  {
    var s := p + d + rest;
    assert OccursAt(s, d, |p|) by {
      assert s[|p|..|p| + |d|] == d;
    }
    var q := p + d[..|d| - 1];
    assert q == s[..|q|];
    forall j | 0 <= j < |p|
      ensures !OccursAt(s, d, j)
    {
      assert s[j..j + |d|] == q[j..j + |d|];
      assert !OccursAt(q, d, j);
    }
    FindFromFirst(s, d, 0);
    assert FindFrom(s, d, 0) == Some(|p|);
    assert s[..|p|] == p;
    assert s[|p| + |d|..] == rest;
    assert Explode(d, s) == [s[..|p|]] + Explode(d, s[|p| + |d|..]);
  }

  /** Splitting joined pieces gives the pieces back, when no piece can be
      confused with the delimiter. */
  lemma {:induction false} ExplodeImplode(d: Bytes, parts: seq<Bytes>)
    requires |d| > 0 && |parts| >= 1
    requires forall i :: 0 <= i < |parts| ==> Separable(parts[i], d)
    ensures Explode(d, Implode(d, parts)) == parts
    decreases |parts|
  {
    if |parts| == 1 {
      SeparableHasNoDelimiter(parts[0], d);
      ExplodeWhole(d, parts[0]);
    } else {
      ExplodeImplode(d, parts[1..]);
      ExplodeCons(d, parts[0], Implode(d, parts[1..]));
      assert parts == [parts[0]] + parts[1..];
    }
  }

  /** The first piece is the text before the first occurrence of `d`. */
  lemma ExplodeFirst(d: Bytes, s: Bytes)
    requires |d| > 0
    ensures IsPrefix(Explode(d, s)[0], s)
    ensures !Contains(Explode(d, s)[0], d)
    ensures |Explode(d, s)[0]| == |s| || OccursAt(s, d, |Explode(d, s)[0]|)
  {
    FindFromFirst(s, d, 0);
    match FindFrom(s, d, 0)
    case None =>
      assert Explode(d, s)[0] == s;
    case Some(i) =>
      var p := s[..i];
      assert Explode(d, s)[0] == p;
      forall j | 0 <= j <= |p| - |d|
        ensures !OccursAt(p, d, j)
      {
        assert p[j..j + |d|] == s[j..j + |d|];
        assert !OccursAt(s, d, j);
      }
  }

  lemma ImplodeSnoc(d: Bytes, parts: seq<Bytes>, x: Bytes)
    requires |parts| >= 1
    ensures Implode(d, parts + [x]) == Implode(d, parts) + d + x
    decreases |parts|
  {
    if |parts| == 1 {
      assert parts + [x] == [parts[0], x];
      assert [parts[0], x][1..] == [x];
    } else {
      assert (parts + [x])[1..] == parts[1..] + [x];
      ImplodeSnoc(d, parts[1..], x);
    }
  }

  /** Splitting pieces joined and followed by a delimiter and more text gives
      the pieces, then the pieces of the rest. */
  lemma {:induction false} ExplodeAfterParts(d: Bytes, parts: seq<Bytes>, rest: Bytes)
    requires |d| > 0 && |parts| >= 1
    requires forall i :: 0 <= i < |parts| ==> Separable(parts[i], d)
    ensures Explode(d, Implode(d, parts) + d + rest) == parts + Explode(d, rest)
    decreases |parts|
  {
    if |parts| == 1 {
      ExplodeCons(d, parts[0], rest);
    } else {
      var tail := Implode(d, parts[1..]) + d + rest;
      ExplodeAfterParts(d, parts[1..], rest);
      ExplodeCons(d, parts[0], tail);
      assert Implode(d, parts) + d + rest == parts[0] + d + tail;
      assert parts == [parts[0]] + parts[1..];
    }
  }

  /** A piece stands safely before a CRLF exactly when it holds no CRLF of
      its own: a CR at its very end cannot pair with the CR that follows. */
  lemma CrlfSeparable(p: Bytes)
    ensures Separable(p, CRLF) <==> !Contains(p, CRLF)
  {
    if Separable(p, CRLF) {
      SeparableHasNoDelimiter(p, CRLF);
    }
    if !Contains(p, CRLF) {
      var q := p + CRLF[..1];
      forall j | 0 <= j <= |q| - 2
        ensures !OccursAt(q, CRLF, j)
      {
        if j + 2 <= |p| {
          assert q[j..j + 2] == p[j..j + 2];
          assert !OccursAt(p, CRLF, j);
        } else {
          assert j + 1 == |p| && q[|p|] == CR;
          assert q[j..j + 2][1] == q[j + 1];
        }
      }
    }
  }

  /** A string without a CR byte contains no CRLF. */
  lemma NoCrNoCrlf(p: Bytes)
    requires CR !in p
    ensures !Contains(p, CRLF)
  {
    forall j | 0 <= j <= |p| - 2
      ensures !OccursAt(p, CRLF, j)
    {
      assert p[j..j + 2][0] == p[j] != CR;
    }
  }

  /** Two CRLF-free strings stay CRLF-free when joined, unless the first
      ends in CR and the second starts with LF. */
  lemma JoinNoCrlf(a: Bytes, b: Bytes)
    requires !Contains(a, CRLF) && !Contains(b, CRLF)
    requires a == [] || b == [] || a[|a| - 1] != CR || b[0] != LF
    ensures !Contains(a + b, CRLF)
  {
    var s := a + b;
    forall j | 0 <= j <= |s| - 2
      ensures !OccursAt(s, CRLF, j)
    {
      if j + 2 <= |a| {
        assert s[j..j + 2] == a[j..j + 2];
        assert !OccursAt(a, CRLF, j);
      } else if j >= |a| {
        assert s[j..j + 2] == b[j - |a|..j - |a| + 2];
        assert !OccursAt(b, CRLF, j - |a|);
      } else {
        assert j == |a| - 1 && s[j] == a[|a| - 1] && s[j + 1] == b[0];
        assert s[j..j + 2] == [a[|a| - 1], b[0]];
        assert [a[|a| - 1], b[0]] != CRLF;
      }
    }
  }

  /** Joining CRLF-free pieces with a space gives a CRLF-free string. */
  lemma {:induction false} ImplodeNoCrlf(parts: seq<Bytes>)
    requires forall i :: 0 <= i < |parts| ==> !Contains(parts[i], CRLF)
    ensures !Contains(Implode([SP], parts), CRLF)
    decreases |parts|
  {
    if |parts| > 1 {
      ImplodeNoCrlf(parts[1..]);
      assert !Contains([SP], CRLF);
      JoinNoCrlf(parts[0], [SP]);
      JoinNoCrlf(parts[0] + [SP], Implode([SP], parts[1..]));
    }
  }

  /** For a one-byte delimiter, occurring means being one of the bytes. */
  lemma ContainsByte(p: Bytes, b: byte)
    ensures Contains(p, [b]) <==> b in p
    ensures Separable(p, [b]) <==> b !in p
  {
    if b in p {
      var i :| 0 <= i < |p| && p[i] == b;
      assert OccursAt(p, [b], i);
    }
    if Contains(p, [b]) {
      var i :| 0 <= i <= |p| - 1 && OccursAt(p, [b], i);
      assert p[i..i + 1][0] == p[i];
    }
    assert p + [b][..0] == p;
  }

  /** `explode(d, s, 2)`: split at the first occurrence of `d` only. */
  function ExplodeOnce(d: Bytes, s: Bytes): (parts: seq<Bytes>)
    requires |d| > 0
    ensures |parts| == 1 <==> !Contains(s, d)
    ensures |parts| == 1 ==> parts[0] == s
    ensures |parts| == 2 ==> !Contains(parts[0], d) && s == parts[0] + d + parts[1]
    ensures 1 <= |parts| <= 2
  {
    FindFromFirst(s, d, 0);
    match FindFrom(s, d, 0)
    case None =>
      assert !Contains(s, d);
      [s]
    case Some(i) =>
      assert OccursAt(s, d, i);
      forall j | 0 <= j <= i - |d|
        ensures !OccursAt(s[..i], d, j)
      {
        assert s[..i][j..j + |d|] == s[j..j + |d|];
        assert !OccursAt(s, d, j);
      }
      assert s == s[..i] + d + s[i + |d|..];
      [s[..i], s[i + |d|..]]
  }

  /** The bytes `trim` strips by default: space, tab, LF, CR, NUL, vertical tab. */
  predicate IsTrimmed(b: byte) {
    b == 32 || b == 9 || b == 10 || b == 13 || b == 0 || b == 11
  }

  predicate AllTrimmed(s: Bytes) {
    forall i :: 0 <= i < |s| ==> IsTrimmed(s[i])
  }

  /** The number of strippable bytes at the start of `s`. */
  function LeadingSpace(s: Bytes): (n: nat)
    ensures n <= |s| && AllTrimmed(s[..n])
    ensures n < |s| ==> !IsTrimmed(s[n])
  {
    var n := LeadingFrom(s, 0);
    var head := s[..n];
    forall i | 0 <= i < |head|
      ensures IsTrimmed(head[i])
    {
      assert head[i] == s[i];
    }
    n
  }

  /** The number of strippable bytes from position `k` of `s` onwards. */
  function LeadingFrom(s: Bytes, k: nat): (n: nat)
    requires k <= |s|
    ensures k + n <= |s| && forall i :: k <= i < k + n ==> IsTrimmed(s[i])
    ensures k + n < |s| ==> !IsTrimmed(s[k + n])
    decreases |s| - k
  {
    if k < |s| && IsTrimmed(s[k]) then 1 + LeadingFrom(s, k + 1) else 0
  }

  /** The number of strippable bytes at the end of `s`. */
  function TrailingSpace(s: Bytes): (n: nat)
    ensures n <= |s| && AllTrimmed(s[|s| - n..])
    ensures n < |s| ==> !IsTrimmed(s[|s| - n - 1])
  {
    var n := TrailingBefore(s, |s|);
    var tail := s[|s| - n..];
    forall i | 0 <= i < |tail|
      ensures IsTrimmed(tail[i])
    {
      assert tail[i] == s[|s| - n + i];
    }
    n
  }

  /** The number of strippable bytes just before position `k` of `s`. */
  function TrailingBefore(s: Bytes, k: nat): (n: nat)
    requires k <= |s|
    ensures n <= k && forall i :: k - n <= i < k ==> IsTrimmed(s[i])
    ensures n < k ==> !IsTrimmed(s[k - n - 1])
    decreases k
  {
    if k > 0 && IsTrimmed(s[k - 1]) then 1 + TrailingBefore(s, k - 1) else 0
  }

  /** `trim(s)`: `s` without its strippable bytes at either end. */
  function Trim(s: Bytes): (r: Bytes)
    ensures LeadingSpace(s) + |r| <= |s|
    ensures r == s[LeadingSpace(s)..LeadingSpace(s) + |r|]
    ensures AllTrimmed(s[LeadingSpace(s) + |r|..])
    ensures r != [] ==> !IsTrimmed(r[0]) && !IsTrimmed(r[|r| - 1])
    ensures r == [] ==> AllTrimmed(s)
  {
    var a := LeadingSpace(s);
    var rest := s[a..];
    var b := TrailingSpace(rest);
    assert rest[|rest| - b..] == s[|s| - b..];
    if a == |s| then [] else rest[..|rest| - b]
  }

  /** A string that has no strippable byte at either end is its own `trim`. */
  lemma TrimUnpadded(s: Bytes)
    requires s != [] ==> !IsTrimmed(s[0]) && !IsTrimmed(s[|s| - 1])
    ensures Trim(s) == s
  {
  }

  /** A value after one separating space trims back to itself. */
  lemma TrimAfterSpace(v: Bytes)
    requires v != [] ==> !IsTrimmed(v[0]) && !IsTrimmed(v[|v| - 1])
    ensures Trim([SP] + v) == v
  {
    var s := [SP] + v;
    assert s[1..] == v;
    assert LeadingSpace(s) == 1;
  }

  /** `substr(s, 0, n)`: at most the first `n` bytes. */
  function Prefix(s: Bytes, n: nat): (r: Bytes)
    ensures |r| == if |s| <= n then |s| else n
    ensures IsPrefix(r, s)
  {
    if |s| <= n then s else s[..n]
  }
}

=== FILE: phpvalues.dfy ===
/** The PHP values that reach the workers and the supervisor through
    string-keyed arrays (`$args`, `$config`), and the `??` operator. */
module PhpValues {

  import opened Results
  import opened ByteStrings
  import opened Decimal

  datatype Value = Null | Bool(b: bool) | Int(i: int) | Str(s: Bytes)

  /** A PHP array with string keys. */
  type PhpArray = map<Bytes, Value>

  /** The error PHP raises when a value cannot be coerced to the type of a
      typed property or an `int` parameter. */
  datatype TypeError = TypeError

  /** `a[key] ?? …`: the entry, unless it is missing or `null`. */
  function Coalesce(a: PhpArray, key: Bytes): (r: Option<Value>)
    ensures r.None? <==> key !in a || a[key] == Null
    ensures r.Some? ==> key in a && r.value == a[key]
  {
    if key in a && a[key] != Null then Some(a[key]) else None
  }

  /** `a[key] ?? default` stored in a `string` property (PHP's coercive mode
      turns an integer into its decimal text and a boolean into "1" or ""). */
  function StringArg(a: PhpArray, key: Bytes, default: Bytes): (r: Bytes)
    ensures Coalesce(a, key).None? ==> r == default
    ensures key in a && a[key].Str? ==> r == a[key].s
    ensures key in a && a[key].Int? ==> r == IntToDecimal(a[key].i)
    ensures key in a && a[key].Bool? ==> r == (if a[key].b then Ascii("1") else [])
  {
    match Coalesce(a, key)
    case None => default
    case Some(v) =>
      match v
      case Str(s) => s
      case Int(i) => IntToDecimal(i)
      case Bool(b) => if b then [49] else []
      case Null => default
  }

  /** `a[key] ?? default` stored in an `int` property. A string converts when
      it is a plain run of decimal digits, and is a type error otherwise. */
  function IntArg(a: PhpArray, key: Bytes, default: int): (r: Result<int, TypeError>)
    ensures Coalesce(a, key).None? ==> r == Ok(default)
    ensures key in a && a[key].Int? ==> r == Ok(a[key].i)
    ensures key in a && a[key].Bool? ==> r == Ok(if a[key].b then 1 else 0)
    ensures key in a && a[key].Str? ==> (r.Ok? <==> |a[key].s| >= 1 && AllDigits(a[key].s))
    ensures key in a && a[key].Str? && |a[key].s| >= 1 && AllDigits(a[key].s) ==> r == Ok(DigitsValue(a[key].s))
  {
    match Coalesce(a, key)
    case None => Ok(default)
    case Some(v) =>
      match v
      case Int(i) => Ok(i)
      case Bool(b) => Ok(if b then 1 else 0)
      case Str(s) => if |s| >= 1 && AllDigits(s) then Ok(DigitsValue(s)) else Err(TypeError)
      case Null => Ok(default)
  }

  /** A value in a boolean context: `null`, `false`, `0`, `""` and `"0"` are false. */
  predicate AsBool(v: Value) {
    match v
    case Null => false
    case Bool(b) => b
    case Int(i) => i != 0
    case Str(s) => Truthy(s)
  }
}

=== FILE: processmanager.dfy ===
/** The supervisor: a registry of the workers it started, kept in a shared
    table keyed by pid, plus its configuration. Forking, signal delivery and
    the clock are inputs. */
module ProcessManager {

  import opened Results
  import opened ByteStrings
  import opened PhpString
  import opened PhpValues
  import opened Decimal
  import opened Signals

  /** The status a row is written with: running. */
  const RunningStatus: int := 1

  /** The width of the table's `name` column; longer strings are cut to it. */
  const NameWidth: nat := 128

  /** One row of the process table. */
  datatype Row = Row(pid: int, name: Bytes, status: int, startedAt: int, memory: int)

  /** The process table, keyed by pid. */
  type Table = map<int, Row>

  /** The supervisor's static state. The table only exists once `init` has
      run; touching it before that is an error. */
  datatype Supervisor = Uninitialized(config: PhpArray) | Ready(config: PhpArray, table: Table)

  function DefaultConfig(): PhpArray {
    map[Ascii("max_processes") := Int(128),
        Ascii("log_path") := Str(Ascii("/tmp/process_manager.log")),
        Ascii("enable_coroutine") := Bool(true)]
  }

  /** The state before any call. */
  function Initial(): Supervisor {
    Uninitialized(DefaultConfig())
  }

  /** Every row sits under its own pid, is marked running and fits the name column. */
  predicate WellFormed(t: Table) {
    forall pid :: pid in t ==> t[pid].pid == pid && t[pid].status == RunningStatus && |t[pid].name| <= NameWidth
  }

  /** The configuration key that sizes the table. */
  function MaxProcessesKey(): Bytes { Ascii("max_processes") }

  /** A value an `int` parameter rejects with a type error: a string that is
      not a plain run of decimal digits. */
  predicate NotAnInt(v: Value) {
    v.Str? && !(|v.s| >= 1 && AllDigits(v.s))
  }

  /** What `init` did: the new state, and the type error `new Table` threw
      when `max_processes` does not convert to an int. */
  datatype Initialized = Initialized(s: Supervisor, error: Option<TypeError>)

  /** `init`: the given entries override the current configuration and every
      other entry stays. Then a fresh empty table replaces any earlier one,
      unless `new Table` rejects `max_processes`: the merged configuration is
      kept either way, and on the type error the table is left as it was. */
  function Init(s: Supervisor, c: PhpArray): (r: Initialized)
    ensures forall k :: k in c ==> k in r.s.config && r.s.config[k] == c[k]
    ensures forall k :: k !in c ==> (k in r.s.config <==> k in s.config)
    ensures forall k :: k !in c && k in s.config ==> r.s.config[k] == s.config[k]
    ensures r.error.Some? <==> MaxProcessesKey() in r.s.config && NotAnInt(r.s.config[MaxProcessesKey()])
    ensures r.error.None? ==> r.s.Ready? && r.s.table == map[]
    ensures r.error.Some? ==> r.s.Ready? == s.Ready? && (s.Ready? ==> r.s.table == s.table)
  {
    var config := s.config + c;
    match IntArg(config, MaxProcessesKey(), 0)
    case Ok(_) => Initialized(Ready(config, map[]), None)
    case Err(e) =>
      var kept := if s.Ready? then Ready(config, s.table) else Uninitialized(config);
      Initialized(kept, Some(e))
  }

  /** On the first `init`, a key the caller leaves out keeps its default, and
      without a `max_processes` of its own the table is created empty. */
  lemma InitKeepsDefaults(c: PhpArray)
    ensures var r := Init(Initial(), c);
      && r.s.config[MaxProcessesKey()] == (if MaxProcessesKey() in c then c[MaxProcessesKey()] else Int(128))
      && r.s.config[Ascii("enable_coroutine")] == (if Ascii("enable_coroutine") in c then c[Ascii("enable_coroutine")] else Bool(true))
    ensures MaxProcessesKey() !in c ==> Init(Initial(), c) == Initialized(Ready(DefaultConfig() + c, map[]), None)
  {
  }

  /** Why `execute` or `kill` did not complete: the class is unknown, it is
      not a process class, the fork failed, or `init` never ran. */
  datatype Failure = ClassNotFound | NotAProcess | StartFailed | TableUninitialized

  /** The classes that exist, each mapped to whether it implements the
      process interface. */
  type Classes = map<Bytes, bool>

  /** A child that was forked: its pid and what it runs. */
  datatype Spawn = Spawn(pid: int, cls: Bytes, args: PhpArray, title: Bytes, coroutine: bool)

  /** The result of `execute`: the new state, the child forked if any, and
      the returned pid or the failure. */
  datatype Executed = Executed(s: Supervisor, spawned: Option<Spawn>, result: Result<int, Failure>)

  /** The title `execute` sets before forking. `name` renames the process
      that calls it, so it is the supervisor that takes this title, and the
      child inherits it through the fork; the model records it only as the
      child's title. */
  function Title(cls: Bytes): Bytes {
    Ascii("YourFramework: ") + cls
  }

  /** Whether the child runs its worker inside a coroutine. */
  predicate CoroutineMode(config: PhpArray) {
    Ascii("enable_coroutine") in config && AsBool(config[Ascii("enable_coroutine")])
  }

  /** `execute`, given the class registry, the fork's result (`None` for
      failure) and the clock. The class is checked before anything is
      forked; the table is written after the fork, so without `init` the
      child is already running when the call fails. */
  function Execute(s: Supervisor, classes: Classes, cls: Bytes, args: PhpArray, start: Option<int>, now: int): (r: Executed)
    ensures cls !in classes ==> r == Executed(s, None, Err(ClassNotFound))
    ensures cls in classes && !classes[cls] ==> r == Executed(s, None, Err(NotAProcess))
    ensures cls in classes && classes[cls] && start.None? ==> r == Executed(s, None, Err(StartFailed))
    ensures r.spawned.Some? <==> cls in classes && classes[cls] && start.Some?
    ensures r.spawned.Some? ==>
      r.spawned.value == Spawn(start.value, cls, args, Title(cls), CoroutineMode(s.config))
    ensures r.result.Ok? <==> r.spawned.Some? && s.Ready?
    ensures r.spawned.Some? && s.Uninitialized? ==> r.s == s && r.result == Err(TableUninitialized)
    ensures r.result.Ok? ==> r.result.value == start.value && r.s.Ready? && r.s.config == s.config
    ensures r.result.Ok? ==>
      && start.value in r.s.table
      && r.s.table[start.value] == Row(start.value, Prefix(cls, NameWidth), RunningStatus, now, 0)
    ensures r.result.Ok? ==> forall p :: p != start.value ==>
      (p in r.s.table <==> p in s.table) && (p in s.table ==> r.s.table[p] == s.table[p])
  {
    if cls !in classes then Executed(s, None, Err(ClassNotFound))
    else if !classes[cls] then Executed(s, None, Err(NotAProcess))
    else
      match start
      case None => Executed(s, None, Err(StartFailed))
      case Some(pid) =>
        var spawned := Some(Spawn(pid, cls, args, Title(cls), CoroutineMode(s.config)));
        match s
        case Uninitialized(_) => Executed(s, spawned, Err(TableUninitialized))
        case Ready(config, table) =>
          var row := Row(pid, Prefix(cls, NameWidth), RunningStatus, now, 0);
          Executed(Ready(config, table[pid := row]), spawned, Ok(pid))
  }

  /** The result of `kill`: the new state, the signal sent as (pid, signal)
      if any, and whether the pid was tracked. */
  datatype Killed = Killed(s: Supervisor, signalled: Option<(int, int)>, result: Result<bool, Failure>)

  /** `kill`: an untracked pid is refused without a signal; a tracked one is
      signalled and only its row is removed. */
  function Kill(s: Supervisor, pid: int, signal: int := SIGTERM): (r: Killed)
    ensures s.Uninitialized? ==> r == Killed(s, None, Err(TableUninitialized))
    ensures s.Ready? && pid !in s.table ==> r == Killed(s, None, Ok(false))
    ensures s.Ready? && pid in s.table ==>
      && r.result == Ok(true) && r.signalled == Some((pid, signal))
      && r.s.Ready? && r.s.config == s.config && pid !in r.s.table
      && forall p :: p != pid ==> (p in r.s.table <==> p in s.table) && (p in s.table ==> r.s.table[p] == s.table[p])
  {
    match s
    case Uninitialized(_) => Killed(s, None, Err(TableUninitialized))
    case Ready(config, table) =>
      if pid !in table then Killed(s, None, Ok(false))
      else Killed(Ready(config, table - {pid}), Some((pid, signal)), Ok(true))
  }

  /** `getRunningProcesses`: a copy of the table, row by row. */
  method GetRunningProcesses(s: Supervisor) returns (r: Result<map<int, Row>, Failure>)
    ensures s.Uninitialized? ==> r == Err(TableUninitialized)
    ensures s.Ready? ==> r.Ok? && r.value.Keys == s.table.Keys
    ensures s.Ready? ==> forall p :: p in r.value ==> r.value[p] == s.table[p]
  {
    if s.Uninitialized? {
      return Err(TableUninitialized);
    }
    var processes: map<int, Row> := map[];
    var remaining := s.table.Keys;
    while exists p :: p in remaining
      invariant remaining <= s.table.Keys
      invariant processes.Keys == s.table.Keys - remaining
      invariant forall p :: p in processes ==> processes[p] == s.table[p]
      decreases remaining
    {
      var key :| key in remaining;
      processes := processes[key := s.table[key]];
      remaining := remaining - {key};
    }
    return Ok(processes);
  }

  /** Some row carries the name `cls` and the running status. */
  predicate RunningAs(t: Table, cls: Bytes) {
    exists pid :: pid in t && t[pid].name == cls && t[pid].status == RunningStatus
  }

  /** `isRunning`: a scan of the rows for one with the class's name that is
      marked running. */
  method IsRunning(s: Supervisor, cls: Bytes) returns (r: Result<bool, Failure>)
    ensures s.Uninitialized? ==> r == Err(TableUninitialized)
    ensures s.Ready? ==> r == Ok(RunningAs(s.table, cls))
  {
    if s.Uninitialized? {
      return Err(TableUninitialized);
    }
    var remaining := s.table.Keys;
    while exists p :: p in remaining
      invariant remaining <= s.table.Keys
      invariant forall p :: p in s.table.Keys - remaining ==> !(s.table[p].name == cls && s.table[p].status == RunningStatus)
      decreases remaining
    {
      var key :| key in remaining;
      if s.table[key].name == cls && s.table[key].status == RunningStatus {
        return Ok(true);
      }
      remaining := remaining - {key};
    }
    return Ok(false);
  }

  /** `init`, `execute` and `kill` keep the table well formed. */
  lemma ExecutePreservesWellFormed(s: Supervisor, classes: Classes, cls: Bytes, args: PhpArray, start: Option<int>, now: int)
    requires s.Ready? && WellFormed(s.table)
    ensures var r := Execute(s, classes, cls, args, start, now);
      r.s.Ready? && WellFormed(r.s.table)
  {
  }

  lemma KillPreservesWellFormed(s: Supervisor, pid: int, signal: int)
    requires s.Ready? && WellFormed(s.table)
    ensures var r := Kill(s, pid, signal);
      r.s.Ready? && WellFormed(r.s.table)
  {
  }

  /** `init` leaves a well-formed table: a fresh empty one, or the old one
      when `new Table` throws. */
  lemma InitWellFormed(s: Supervisor, c: PhpArray)
    requires s.Ready? ==> WellFormed(s.table)
    ensures Init(s, c).s.Ready? ==> WellFormed(Init(s, c).s.table)
  {
  }

  /** A name longer than the column never matches a stored row. */
  lemma LongNameNeverRunning(t: Table, cls: Bytes)
    requires WellFormed(t) && |cls| > NameWidth
    ensures !RunningAs(t, cls)
  {
  }

  /** After a successful `execute`, the class counts as running exactly
      when its name fits the name column. */
  lemma ExecuteThenRunning(s: Supervisor, classes: Classes, cls: Bytes, args: PhpArray, start: Option<int>, now: int)
    requires s.Ready? && WellFormed(s.table)
    requires Execute(s, classes, cls, args, start, now).result.Ok?
    ensures RunningAs(Execute(s, classes, cls, args, start, now).s.table, cls) <==> |cls| <= NameWidth
  {
    var r := Execute(s, classes, cls, args, start, now);
    ExecutePreservesWellFormed(s, classes, cls, args, start, now);
    if |cls| <= NameWidth {
      assert r.s.table[start.value].name == cls;
    } else {
      LongNameNeverRunning(r.s.table, cls);
    }
  }

  /** Killing a pid twice: the second call finds nothing, sends nothing and
      changes nothing. */
  lemma KillTwice(s: Supervisor, pid: int, signal: int, signal2: int)
    requires s.Ready?
    ensures var once := Kill(s, pid, signal);
      var twice := Kill(once.s, pid, signal2);
      twice == Killed(once.s, None, Ok(false))
  {
  }

  /** Starting a worker under a fresh pid and then killing it with the
      default signal sends SIGTERM to it and restores the table. */
  lemma ExecuteThenKill(s: Supervisor, classes: Classes, cls: Bytes, args: PhpArray, pid: int, now: int)
    requires s.Ready? && pid !in s.table
    requires cls in classes && classes[cls]
    ensures var e := Execute(s, classes, cls, args, Some(pid), now);
      var k := Kill(e.s, pid);
      && e.result == Ok(pid)
      && k.result == Ok(true) && k.signalled == Some((pid, SIGTERM))
      && k.s == s
  {
    var e := Execute(s, classes, cls, args, Some(pid), now);
    var k := Kill(e.s, pid);
    assert k.s.table == s.table;
  }
}

=== FILE: results.dfy ===
/** Optional values and results with an error, as returned by the model's operations
    where the PHP code returns `false`/`null` or throws. */
module Results {

  /** A value that may be absent (PHP `null` or `false`). */
  datatype Option<+T> = None | Some(value: T)

  /** A value, or the error the PHP code throws instead of returning one. */
  datatype Result<+T, +E> = Ok(value: T) | Err(error: E)
}

=== FILE: signals.dfy ===
/** POSIX signal numbers on Linux that the supervisor and the workers use. */
module Signals {

  const SIGINT: int := 2
  const SIGTERM: int := 15
}

=== FILE: standardprocess.dfy ===
/** The worker that talks over the pipe Swoole creates at fork time: each
    tick is one bounded non-blocking read, at most one handler call and at
    most one write back. */
module StandardProcess {

  import opened Results
  import opened ByteStrings
  import opened WorkerIo

  /** `getSocketType`: the pipe is a datagram socket pair. */
  function SocketType(): int {
    SOCK_DGRAM
  }

  /** The default `processMessage`: no response. */
  function DefaultProcessMessage(data: Bytes): (r: Option<Bytes>)
    ensures r.None?
  {
    None
  }

  /** `processData`, given what the non-blocking read returned (`None` for
      `false`). A falsy read ("" or "0" included) is ignored. */
  function ProcessData(processMessage: Handler, read: Option<Bytes>): (e: seq<Effect>)
    ensures |e| >= 1 && e[0] == PipeRead(ReadSize)
    ensures forall i :: 0 < i < |e| ==> e[i].HandlerCalled? || e[i].PipeWrite?
    ensures TruthyRead(read) ==> |e| >= 2 && e[1] == HandlerCalled(read.value)
    ensures forall i :: 1 < i < |e| ==> e[i].PipeWrite?
    ensures Calls(e) == if TruthyRead(read) then [read.value] else []
    ensures PipeWrites(e) ==
      if TruthyRead(read) && processMessage(read.value).Some? then [processMessage(read.value).value] else []
    ensures ClientWrites(e) == []
  {
    var tail := if TruthyRead(read) then [HandlerCalled(read.value)] + Reply(processMessage(read.value), Pipe) else [];
    var e := [PipeRead(ReadSize)] + tail;
    var data := if read.Some? then read.value else [];
    ProjectAll(PipeRead(ReadSize), tail);
    ProjectAll(HandlerCalled(data), Reply(processMessage(data), Pipe));
    ReplyProjections(processMessage(data), Pipe);
    e
  }

  /** A plain `StandardProcess` never writes. */
  lemma DefaultNeverWrites(read: Option<Bytes>)
    ensures PipeWrites(ProcessData(DefaultProcessMessage, read)) == []
  {
  }
}

=== FILE: streamserver.dfy ===
/** The accept/read/handle/write/close step that the Unix-socket and TCP
    workers share (their `processData` and `handleClient` are the same code).
    A client is described by what its successive `socket_read` calls return;
    `None` stands for `false`, and a client whose read results run out behaves as
    one that has closed (the next read returns ""). */
module StreamServer {

  import opened Results
  import opened ByteStrings
  import opened WorkerIo

  datatype Conn = Conn(results: seq<Option<Bytes>>)

  /** The index of the first read that ends the read loop (a falsy one), or
      the number of reads when all of them are truthy. */
  function FirstFalsy(results: seq<Option<Bytes>>): (k: nat)
    ensures k <= |results|
    ensures forall i :: 0 <= i < k ==> TruthyRead(results[i])
    ensures k < |results| ==> !TruthyRead(results[k])
  {
    if results == [] || !TruthyRead(results[0]) then 0 else 1 + FirstFalsy(results[1..])
  }

  /** The chunks the read loop appends: the payloads before the first falsy read. */
  function Chunks(results: seq<Option<Bytes>>): (c: seq<Bytes>)
    ensures |c| == FirstFalsy(results)
    ensures forall i :: 0 <= i < |c| ==> results[i] == Some(c[i])
  {
    seq(FirstFalsy(results), i requires 0 <= i < FirstFalsy(results) => results[i].value)
  }

  /** The `while ($buffer = socket_read($client, 8192))` loop: the request
      read, and the number of reads issued (the falsy one included). */
  function ReadLoop(results: seq<Option<Bytes>>): (r: (Bytes, nat))
    ensures r.1 == FirstFalsy(results) + 1
  {
    if results == [] || !TruthyRead(results[0]) then ([], 1)
    else
      var rest := ReadLoop(results[1..]);
      (results[0].value + rest.0, rest.1 + 1)
  }

  /** The request is the concatenation of the chunks before the first falsy read. */
  lemma {:induction false} ReadLoopConcatenates(results: seq<Option<Bytes>>)
    ensures ReadLoop(results).0 == Concat(Chunks(results))
    decreases |results|
  {
    if results != [] && TruthyRead(results[0]) {
      ReadLoopConcatenates(results[1..]);
      var first := results[0].value;
      assert Chunks(results) == [first] + Chunks(results[1..]);
      ConcatAppend([first], Chunks(results[1..]));
      assert [first][..0] == [];
      assert Concat([first]) == first;
    }
  }

  /** The request is empty exactly when the first read is falsy, and a
      non-empty request is never "0": `!empty($data)` is `$data !== ''`. */
  lemma RequestEmptiness(results: seq<Option<Bytes>>)
    ensures ReadLoop(results).0 == [] <==> FirstFalsy(results) == 0
    ensures ReadLoop(results).0 != [] ==> Truthy(ReadLoop(results).0)
  {
    if results != [] && TruthyRead(results[0]) {
      var req := ReadLoop(results).0;
      var first := results[0].value;
      var rest := ReadLoop(results[1..]).0;
      assert req == first + rest;
      if |req| == 1 {
        assert rest == [] && req == first;
      }
    }
  }

  /** `n` read calls with the 8192-byte bound. */
  function ReadCalls(n: nat): (e: seq<Effect>)
    ensures |e| == n && forall i :: 0 <= i < n ==> e[i] == ClientRead(ReadSize)
  {
    seq(n, i => ClientRead(ReadSize))
  }

  lemma ReadCallsProject(n: nat)
    ensures Calls(ReadCalls(n)) == [] && PipeWrites(ReadCalls(n)) == [] && ClientWrites(ReadCalls(n)) == []
    decreases n
  {
    if n > 0 {
      assert ReadCalls(n) == [ClientRead(ReadSize)] + ReadCalls(n - 1);
      ProjectAll(ClientRead(ReadSize), ReadCalls(n - 1));
      ReadCallsProject(n - 1);
    }
  }

  /** The request a connection delivers. */
  function Request(c: Conn): Bytes {
    ReadLoop(c.results).0
  }

  /** `handleClient`: read the whole request, call the handler once when it
      is not empty, and write its result back when it is not `null`. */
  function HandleClient(processMessage: Handler, c: Conn): (e: seq<Effect>)
    ensures AcceptTried !in e && ClientClosed !in e
    ensures var n := FirstFalsy(c.results) + 1;
      && n <= |e| && (forall i :: 0 <= i < n ==> e[i] == ClientRead(ReadSize))
      && (Request(c) != [] ==> n < |e| && e[n] == HandlerCalled(Request(c)))
      && (forall i :: n <= i < |e| ==> e[i].HandlerCalled? || e[i].ClientWrite?)
      && (forall i :: n < i < |e| ==> e[i].ClientWrite?)
    ensures Calls(e) == if Request(c) != [] then [Request(c)] else []
    ensures ClientWrites(e) ==
      if Request(c) != [] && processMessage(Request(c)).Some? then [processMessage(Request(c)).value] else []
    ensures PipeWrites(e) == []
  {
    RequestEmptiness(c.results);
    ServeRequest(ReadLoop(c.results).1, Request(c), processMessage(Request(c)));
    HandleClientOrder(processMessage, c);
    ReadCalls(ReadLoop(c.results).1) + Answer(Request(c), processMessage(Request(c)))
  }

  /** The order of `handleClient`'s effects for a given connection. */
  lemma HandleClientOrder(processMessage: Handler, c: Conn)
    ensures var e := ReadCalls(ReadLoop(c.results).1) + Answer(Request(c), processMessage(Request(c)));
      var n := FirstFalsy(c.results) + 1;
      && n <= |e| && (forall i :: 0 <= i < n ==> e[i] == ClientRead(ReadSize))
      && (Request(c) != [] ==> n < |e| && e[n] == HandlerCalled(Request(c)))
      && (forall i :: n <= i < |e| ==> e[i].HandlerCalled? || e[i].ClientWrite?)
      && (forall i :: n < i < |e| ==> e[i].ClientWrite?)
  {
    RequestEmptiness(c.results);
    ServeRequestOrder(ReadLoop(c.results).1, Request(c), processMessage(Request(c)));
  }

  /** The reads come first, then the handler call of a non-empty request,
      then only client writes. */
  lemma ServeRequestOrder(n: nat, request: Bytes, result: Option<Bytes>)
    ensures var e := ReadCalls(n) + Answer(request, result);
      && n <= |e| && (forall i :: 0 <= i < n ==> e[i] == ClientRead(ReadSize))
      && (Truthy(request) ==> n < |e| && e[n] == HandlerCalled(request))
      && (forall i :: n <= i < |e| ==> e[i].HandlerCalled? || e[i].ClientWrite?)
      && (forall i :: n < i < |e| ==> e[i].ClientWrite?)
  {
  }

  /** What follows the reads: for a non-empty request, the handler call and
      the write of its result, if any. */
  function Answer(request: Bytes, result: Option<Bytes>): seq<Effect> {
    if Truthy(request) then [HandlerCalled(request)] + Reply(result, Client) else []
  }

  /** The reads followed by the answer: no accept or close among them,
      the handler call and the client write of a non-empty request. */
  lemma ServeRequest(n: nat, request: Bytes, result: Option<Bytes>)
    ensures var e := ReadCalls(n) + Answer(request, result);
      && AcceptTried !in e && ClientClosed !in e
      && Calls(e) == (if Truthy(request) then [request] else [])
      && ClientWrites(e) == (if Truthy(request) && result.Some? then [result.value] else [])
      && PipeWrites(e) == []
  {
    ServeRequestMembers(n, request, result);
    ServeRequestCalls(n, request, result);
    ServeRequestWrites(n, request, result);
  }

  lemma ServeRequestMembers(n: nat, request: Bytes, result: Option<Bytes>)
    ensures var e := ReadCalls(n) + Answer(request, result);
      AcceptTried !in e && ClientClosed !in e
  {
    var answer := Answer(request, result);
    var e := ReadCalls(n) + answer;
    forall i | 0 <= i < |e|
      ensures e[i] != AcceptTried && e[i] != ClientClosed
    {
      if i >= n {
        assert e[i] == answer[i - n];
        assert answer[i - n].HandlerCalled? || answer[i - n].ClientWrite?;
      }
    }
  }

  lemma ServeRequestCalls(n: nat, request: Bytes, result: Option<Bytes>)
    ensures var e := ReadCalls(n) + Answer(request, result);
      Calls(e) == (if Truthy(request) then [request] else [])
  {
    var answer := Answer(request, result);
    ReadCallsProject(n);
    ProjectAppend(ReadCalls(n), answer, CallView);
    if Truthy(request) {
      ProjectCons(HandlerCalled(request), Reply(result, Client), CallView);
      ReplyProjections(result, Client);
    }
  }

  lemma ServeRequestWrites(n: nat, request: Bytes, result: Option<Bytes>)
    ensures var e := ReadCalls(n) + Answer(request, result);
      && ClientWrites(e) == (if Truthy(request) && result.Some? then [result.value] else [])
      && PipeWrites(e) == []
  {
    var answer := Answer(request, result);
    ReadCallsProject(n);
    ProjectAppend(ReadCalls(n), answer, ClientWriteView);
    ProjectAppend(ReadCalls(n), answer, PipeWriteView);
    AnswerWrites(request, result);
  }

  lemma AnswerWrites(request: Bytes, result: Option<Bytes>)
    ensures ClientWrites(Answer(request, result)) == (if Truthy(request) && result.Some? then [result.value] else [])
    ensures PipeWrites(Answer(request, result)) == []
  {
    if Truthy(request) {
      ProjectCons(HandlerCalled(request), Reply(result, Client), ClientWriteView);
      ProjectCons(HandlerCalled(request), Reply(result, Client), PipeWriteView);
      ReplyProjections(result, Client);
    }
  }

  /** `processData`: one accept attempt; an accepted client is handled and
      then closed. `accept` is what `socket_accept` returned. */
  function ProcessData(processMessage: Handler, accept: Option<Conn>): (e: seq<Effect>)
    ensures |e| >= 1 && e[0] == AcceptTried
    ensures multiset(e)[AcceptTried] == 1
    ensures multiset(e)[ClientClosed] == if accept.Some? then 1 else 0
    ensures accept.Some? ==> e[|e| - 1] == ClientClosed
    ensures accept.Some? ==> e == [AcceptTried] + (HandleClient(processMessage, accept.value) + [ClientClosed])
    ensures accept.None? ==> e == [AcceptTried]
    ensures Calls(e) == if accept.Some? && Request(accept.value) != [] then [Request(accept.value)] else []
    ensures ClientWrites(e) ==
      if accept.Some? && Request(accept.value) != [] && processMessage(Request(accept.value)).Some?
      then [processMessage(Request(accept.value)).value] else []
    ensures PipeWrites(e) == []
  {
    match accept
    case None => [AcceptTried]
    case Some(c) =>
      Accepted(processMessage, c);
      [AcceptTried] + (HandleClient(processMessage, c) + [ClientClosed])
  }

  /** The effects of an accepted connection: the accept, the client's
      handling, the close. */
  lemma Accepted(processMessage: Handler, c: Conn)
    ensures var e := [AcceptTried] + (HandleClient(processMessage, c) + [ClientClosed]);
      && |e| >= 1 && e[0] == AcceptTried && e[|e| - 1] == ClientClosed
      && multiset(e)[AcceptTried] == 1 && multiset(e)[ClientClosed] == 1
      && Calls(e) == (if Request(c) != [] then [Request(c)] else [])
      && ClientWrites(e) ==
        (if Request(c) != [] && processMessage(Request(c)).Some?
         then [processMessage(Request(c)).value] else [])
      && PipeWrites(e) == []
  {
    CloseAfter(HandleClient(processMessage, c));
  }

  /** `processData` as the step the run loop calls once per iteration; no
      step writes to the pipe. */
  function Step(processMessage: Handler): (step: Option<Conn> -> seq<Effect>)
    ensures forall accept :: PipeWrites(step(accept)) == []
  {
    accept => ProcessData(processMessage, accept)
  }

  /** An accept, then a client's handling that neither accepts nor closes,
      then the close: one accept, one close, and the handling's projections. */
  lemma CloseAfter(handled: seq<Effect>)
    requires AcceptTried !in handled && ClientClosed !in handled
    ensures var e := [AcceptTried] + (handled + [ClientClosed]);
      && e[0] == AcceptTried && e[|e| - 1] == ClientClosed
      && multiset(e)[AcceptTried] == 1 && multiset(e)[ClientClosed] == 1
      && Calls(e) == Calls(handled) && ClientWrites(e) == ClientWrites(handled)
      && PipeWrites(e) == PipeWrites(handled)
  {
    ProjectAll(AcceptTried, handled + [ClientClosed]);
    ProjectAppendAll(handled, [ClientClosed]);
    ProjectAll(ClientClosed, []);
    assert multiset(handled)[AcceptTried] == 0 && multiset(handled)[ClientClosed] == 0;
  }
}

=== FILE: tcpprocess.dfy ===
/** The worker that serves a TCP socket: host and port from the arguments,
    the create/bind/listen setup, the handshake that reports an
    OS-assigned port, the loop of accept steps, and the cleanup. */
module TcpProcess {

  import opened Results
  import opened ByteStrings
  import opened PhpValues
  import opened Decimal
  import opened WorkerIo
  import BaseProcess
  import StreamServer
  import Handshake

  datatype TcpWorker = TcpWorker(base: BaseProcess.Worker, host: Bytes, port: int, hasSocket: bool)

  /** `getSocketType`: a stream socket. */
  function SocketType(): int {
    SOCK_STREAM
  }

  function DefaultHost(): Bytes {
    Ascii("127.0.0.1")
  }

  /** The constructor: `host` defaults to 127.0.0.1 and `port` to 0 (let
      the OS choose). A `port` that is not an integer fails to convert. */
  function Construct(args: PhpArray): (r: Result<TcpWorker, TypeError>)
    ensures r.Ok? <==> IntArg(args, Ascii("port"), 0).Ok?
    ensures r.Ok? ==> r.value.base.running && r.value.base.args == args && !r.value.hasSocket
    ensures r.Ok? && Coalesce(args, Ascii("host")).None? ==> r.value.host == DefaultHost()
    ensures r.Ok? && Coalesce(args, Ascii("port")).None? ==> r.value.port == 0
    ensures r.Ok? && Ascii("host") in args && args[Ascii("host")].Str? ==> r.value.host == args[Ascii("host")].s
    ensures r.Ok? ==> r.value.host == StringArg(args, Ascii("host"), DefaultHost())
    ensures r.Ok? ==> IntArg(args, Ascii("port"), 0) == Ok(r.value.port)
    ensures r.Ok? && Ascii("port") in args && args[Ascii("port")].Int? ==> r.value.port == args[Ascii("port")].i
    ensures Ascii("port") in args && args[Ascii("port")].Str? && |args[Ascii("port")].s| >= 1 && AllDigits(args[Ascii("port")].s) ==>
      r.Ok? && r.value.port == DigitsValue(args[Ascii("port")].s)
  {
    match IntArg(args, Ascii("port"), 0)
    case Err(e) => Err(e)
    case Ok(port) =>
      Ok(TcpWorker(BaseProcess.Construct(args), StringArg(args, Ascii("host"), DefaultHost()), port, false))
  }

  /** Whether `socket_create`, `socket_bind` and `socket_listen` succeed. */
  datatype SetupOracle = SetupOracle(created: bool, bound: bool, listened: bool)

  datatype SetupError = CreateFailed | BindFailed | ListenFailed

  datatype Setup = Setup(w: TcpWorker, effects: seq<Effect>, error: Option<SetupError>)

  /** Every call `createSocketServer` makes when all of them succeed, in order. */
  function SetupSteps(host: Bytes, port: int): seq<Effect> {
    [SocketCreated, ReuseAddrSet, AddressBound(host, port), Listened(Backlog), NonBlockingSet]
  }

  /** `createSocketServer`: create, set SO_REUSEADDR, bind, listen with a
      backlog of 128, go non-blocking. The first failing call throws and
      nothing after it runs. */
  function CreateSocketServer(w: TcpWorker, o: SetupOracle): (s: Setup)
    ensures s.w.base == w.base && s.w.host == w.host && s.w.port == w.port
    ensures s.effects <= SetupSteps(w.host, w.port)
    ensures s.error.None? <==> o.created && o.bound && o.listened
    ensures s.error == Some(CreateFailed) <==> !o.created
    ensures s.error == Some(BindFailed) <==> o.created && !o.bound
    ensures s.error.None? ==> s.effects == SetupSteps(w.host, w.port)
    ensures s.error.Some? ==> |s.effects| >= 1
    ensures s.error == Some(CreateFailed) ==> s.effects == [SocketCreated]
    ensures s.error == Some(BindFailed) ==> s.effects[|s.effects| - 1] == AddressBound(w.host, w.port)
    ensures s.error == Some(ListenFailed) ==> s.effects[|s.effects| - 1] == Listened(Backlog)
    ensures s.w.hasSocket <==> o.created
  {
    var steps := SetupSteps(w.host, w.port);
    if !o.created then
      Setup(w.(hasSocket := false), steps[..1], Some(CreateFailed))
    else if !o.bound then
      Setup(w.(hasSocket := true), steps[..3], Some(BindFailed))
    else if !o.listened then
      Setup(w.(hasSocket := true), steps[..4], Some(ListenFailed))
    else
      Setup(w.(hasSocket := true), steps, None)
  }

  /** The handshake after a successful setup on port 0: ask the socket for
      its port and write the handshake to the pipe. `osPort` is the port
      `socket_getsockname` reports, or `None` when it fails and leaves the
      port as it was. A worker with a non-zero port does nothing here. */
  function ReportPort(w: TcpWorker, osPort: Option<int>): (r: (TcpWorker, seq<Effect>))
    ensures r.0.base == w.base && r.0.host == w.host && r.0.hasSocket == w.hasSocket
    ensures w.port != 0 ==> r == (w, [])
    ensures w.port == 0 && osPort.Some? ==> r.0.port == osPort.value
    ensures w.port == 0 && osPort.None? ==> r.0.port == 0
    ensures w.port == 0 ==> r.1 == [PortQueried, PipeWrite(Handshake.Encode(r.0.port))]
  {
    if w.port != 0 then (w, [])
    else
      var port := match osPort case Some(p) => p case None => w.port;
      (w.(port := port), [PortQueried, PipeWrite(Handshake.Encode(port))])
  }

  /** `cleanup`: close the listening socket if there is one. */
  function Cleanup(w: TcpWorker): (r: (TcpWorker, seq<Effect>))
    ensures !r.0.hasSocket && r.0.base == w.base && r.0.host == w.host && r.0.port == w.port
    ensures r.1 == if w.hasSocket then [ListenerClosed] else []
  {
    (w.(hasSocket := false), if w.hasSocket then [ListenerClosed] else [])
  }

  /** A second `cleanup` does nothing and changes nothing. */
  lemma CleanupIdempotent(w: TcpWorker)
    ensures Cleanup(Cleanup(w).0) == (Cleanup(w).0, [])
  {
  }

  /** `cleanup` writes nothing to the pipe. */
  lemma CleanupWritesNoPipe(w: TcpWorker)
    ensures PipeWrites(Cleanup(w).1) == []
  {
    ProjectNone(Cleanup(w).1, PipeWriteView);
  }

  /** What `handle` did: the final state, the effects, the number of
      `processData` calls, and the setup error if setup threw. */
  datatype Run = Run(w: TcpWorker, effects: seq<Effect>, calls: nat, error: Option<SetupError>)

  /** The loop and the cleanup after it, for a worker that is set up: the
      final state, the number of `processData` calls, and the effects. */
  method Serve(w: TcpWorker, ticks: seq<BaseProcess.Tick<Option<StreamServer.Conn>>>, processMessage: Handler)
    returns (w': TcpWorker, calls: nat, effects: seq<Effect>)
    ensures w'.host == w.host && w'.port == w.port && w'.base.args == w.base.args && calls <= |ticks|
    ensures effects == BaseProcess.Iterations(ticks[..calls], StreamServer.Step(processMessage))
                       + (if w'.base.running then [] else Cleanup(w).1)
    ensures PipeWrites(effects) == []
    ensures w.base.running ==> calls == BaseProcess.LoopCalls(ticks)
    ensures !w.base.running ==> calls == 0
    ensures w'.base.running <==> w.base.running && BaseProcess.FirstShutdown(ticks) == |ticks|
    ensures !w'.base.running ==> !w'.hasSocket
    ensures w'.base.running ==> w'.hasSocket == w.hasSocket
  {
    var base, n, loopEffects := BaseProcess.Handle(w.base, ticks, StreamServer.Step(processMessage));
    calls := n;
    if base.running {
      w', effects := w.(base := base), loopEffects;
    } else {
      var closed := Cleanup(w);
      w', effects := closed.0.(base := base), loopEffects + closed.1;
    }
    ServedWritesNoPipe(w, ticks[..n], processMessage, base.running);
  }

  /** The loop, and the cleanup when the worker stopped, write nothing to the pipe. */
  lemma ServedWritesNoPipe(w: TcpWorker, ticks: seq<BaseProcess.Tick<Option<StreamServer.Conn>>>,
                           processMessage: Handler, running: bool)
    ensures PipeWrites(BaseProcess.Iterations(ticks, StreamServer.Step(processMessage))
                       + (if running then [] else Cleanup(w).1)) == []
  {
    var loop := BaseProcess.Iterations(ticks, StreamServer.Step(processMessage));
    BaseProcess.IterationsWriteNoPipe(ticks, StreamServer.Step(processMessage));
    CleanupWritesNoPipe(w);
    ProjectAppendAll(loop, if running then [] else Cleanup(w).1);
  }

  /** `handle`: set up the server, report an OS-assigned port, loop over the
      ticks, clean up once the loop has exited. */
  method Handle(w: TcpWorker, o: SetupOracle, osPort: Option<int>,
                ticks: seq<BaseProcess.Tick<Option<StreamServer.Conn>>>, processMessage: Handler)
    returns (r: Run)
    ensures var s := CreateSocketServer(w, o);
      s.error.Some? ==> r == Run(s.w, s.effects, 0, s.error)
    ensures r.error.Some? ==> PipeWrites(r.effects) == [] && SignalsDispatched !in r.effects
    ensures var s := CreateSocketServer(w, o);
      s.error.None? ==>
        && r.error.None? && r.calls <= |ticks|
        && r.effects == s.effects + ReportPort(s.w, osPort).1
                        + (BaseProcess.Iterations(ticks[..r.calls], StreamServer.Step(processMessage))
                           + if r.w.base.running then [] else [ListenerClosed])
    ensures r.w.host == w.host && r.w.base.args == w.base.args
    ensures r.error.None? ==> CreateSocketServer(w, o).effects <= r.effects
    ensures r.error.None? && w.port != 0 ==> r.w.port == w.port && PipeWrites(r.effects) == []
    ensures r.error.None? && w.port == 0 ==>
      var n := |SetupSteps(w.host, w.port)|;
      && PipeWrites(r.effects) == [Handshake.Encode(r.w.port)]
      && |r.effects| >= n + 2
      && r.effects[n + 1] == PipeWrite(Handshake.Encode(r.w.port))
      && SignalsDispatched !in r.effects[..n + 2]
      && (osPort.Some? ==> r.w.port == osPort.value)
    ensures r.error.None? && w.base.running ==> r.calls == BaseProcess.LoopCalls(ticks)
    ensures r.error.None? ==> (r.w.base.running <==> w.base.running && BaseProcess.FirstShutdown(ticks) == |ticks|)
    ensures r.error.None? ==> (r.w.hasSocket <==> r.w.base.running)
  {
    var s := CreateSocketServer(w, o);
    SetupWritesNothing(s.effects, w.host, w.port);
    if s.error.Some? {
      r := Run(s.w, s.effects, 0, s.error);
      return;
    }
    r := Started(s.w, s.effects, osPort, ticks, processMessage);
  }

  /** What `handle` does once setup has succeeded: report the port, loop,
      clean up. `setup` is what setup did. */
  method Started(w: TcpWorker, setup: seq<Effect>, osPort: Option<int>,
                 ticks: seq<BaseProcess.Tick<Option<StreamServer.Conn>>>, processMessage: Handler)
    returns (r: Run)
    requires w.hasSocket && PipeWrites(setup) == [] && SignalsDispatched !in setup
    ensures r.error.None? && r.calls <= |ticks| && setup <= r.effects
    ensures r.w.host == w.host && r.w.base.args == w.base.args
    ensures r.effects == setup + ReportPort(w, osPort).1
                         + (BaseProcess.Iterations(ticks[..r.calls], StreamServer.Step(processMessage))
                            + if r.w.base.running then [] else [ListenerClosed])
    ensures w.port != 0 ==> r.w.port == w.port && PipeWrites(r.effects) == []
    ensures w.port == 0 ==>
      && PipeWrites(r.effects) == [Handshake.Encode(r.w.port)]
      && |r.effects| >= |setup| + 2
      && r.effects[|setup| + 1] == PipeWrite(Handshake.Encode(r.w.port))
      && SignalsDispatched !in r.effects[..|setup| + 2]
      && (osPort.Some? ==> r.w.port == osPort.value)
    ensures w.base.running ==> r.calls == BaseProcess.LoopCalls(ticks)
    ensures r.w.base.running <==> w.base.running && BaseProcess.FirstShutdown(ticks) == |ticks|
    ensures r.w.hasSocket <==> r.w.base.running
  {
    var reported := ReportPort(w, osPort);
    var w2, calls, served := Serve(reported.0, ticks, processMessage);
    HandshakeFirst(setup, reported.1, served, reported.0.port);
    r := Run(w2, setup + reported.1 + served, calls, None);
  }

  /** The setup calls, the port report and the served loop: the only pipe
      write is the report's handshake, which comes second in the report,
      before any signal dispatch. */
  lemma HandshakeFirst(setup: seq<Effect>, reported: seq<Effect>, served: seq<Effect>, port: int)
    requires PipeWrites(setup) == [] && SignalsDispatched !in setup
    requires PipeWrites(served) == []
    requires reported == [] || reported == [PortQueried, PipeWrite(Handshake.Encode(port))]
    ensures var e := setup + reported + served;
      && setup <= e
      && PipeWrites(e) == (if reported == [] then [] else [Handshake.Encode(port)])
      && (reported != [] ==>
            && |e| >= |setup| + 2
            && e[|setup| + 1] == PipeWrite(Handshake.Encode(port))
            && SignalsDispatched !in e[..|setup| + 2])
  {
    var head := setup + reported;
    assert (head + served)[..|setup|] == setup;
    ProjectAppendAll(setup, reported);
    ProjectAppendAll(head, served);
    if reported != [] {
      ProjectAll(PortQueried, [PipeWrite(Handshake.Encode(port))]);
      ProjectAll(PipeWrite(Handshake.Encode(port)), []);
      assert (head + served)[..|setup| + 2] == head;
    }
  }

  lemma SetupWritesNothing(e: seq<Effect>, host: Bytes, port: int)
    requires e <= SetupSteps(host, port)
    ensures PipeWrites(e) == [] && SignalsDispatched !in e
  {
    ProjectNone(e, PipeWriteView);
  }
}

=== FILE: unixprocess.dfy ===
/** The worker that serves a Unix domain socket: the socket path chosen at
    construction, the bind/listen setup that can fail part-way, the loop
    of accept steps, and the cleanup that closes the socket and removes the
    socket file. The file system is the set of existing paths. */
module UnixProcess {

  import opened Results
  import opened ByteStrings
  import opened PhpValues
  import opened WorkerIo
  import BaseProcess
  import StreamServer

  /** The permission bits given to the socket file: 0777. */
  const SocketMode: nat := 511

  type Files = set<Bytes>

  datatype UnixWorker = UnixWorker(base: BaseProcess.Worker, socketPath: Bytes, hasSocket: bool)

  /** `getSocketType`: a stream socket. */
  function SocketType(): int {
    SOCK_STREAM
  }

  /** The generated path `/tmp/swoole_<uniqid>.sock`. */
  function GeneratedPath(uniqid: Bytes): Bytes {
    Ascii("/tmp/swoole_") + uniqid + Ascii(".sock")
  }

  /** The constructor: `args['socket_path']`, or a generated path when it is
      missing or `null`; `uniqid` is what `uniqid()` returned. */
  function Construct(args: PhpArray, uniqid: Bytes): (w: UnixWorker)
    ensures w.base.running && w.base.args == args && !w.hasSocket
    ensures Coalesce(args, Ascii("socket_path")).None? ==> w.socketPath == GeneratedPath(uniqid)
    ensures Ascii("socket_path") in args && args[Ascii("socket_path")].Str? ==>
      w.socketPath == args[Ascii("socket_path")].s
  {
    UnixWorker(BaseProcess.Construct(args), StringArg(args, Ascii("socket_path"), GeneratedPath(uniqid)), false)
  }

  /** Whether `unlink` removes a stale socket file, and whether
      `socket_create`, `socket_bind` and `socket_listen` succeed. */
  datatype SetupOracle = SetupOracle(unlinked: bool, created: bool, bound: bool, listened: bool)

  datatype SetupError = CreateFailed | BindFailed | ListenFailed

  datatype Setup = Setup(w: UnixWorker, files: Files, effects: seq<Effect>, error: Option<SetupError>)

  /** Every call `createSocketServer` makes when all of them succeed, in order. */
  function SetupSteps(path: Bytes, stale: bool): seq<Effect> {
    (if stale then [FileUnlinked(path)] else [])
    + [SocketCreated, PathBound(path), Listened(Backlog), ModeChanged(path, SocketMode), NonBlockingSet]
  }

  /** The call that fails with a given error. */
  function FailingStep(path: Bytes, e: SetupError): Effect {
    match e
    case CreateFailed => SocketCreated
    case BindFailed => PathBound(path)
    case ListenFailed => Listened(Backlog)
  }

  /** `unlink(path)` when `path` exists: the file is gone unless the call
      failed (its result is not checked). */
  function Unlink(files: Files, path: Bytes, unlinked: bool): (r: Files)
    ensures r - {path} == files - {path}
    ensures path in r <==> path in files && !unlinked
  {
    if unlinked then files - {path} else files
  }

  /** `createSocketServer`: remove a stale file, create, bind, listen with a
      backlog of 128, make the file world-writable, go non-blocking. The
      first failing call throws and nothing after it runs. */
  function CreateSocketServer(w: UnixWorker, files: Files, o: SetupOracle): (s: Setup)
    ensures s.w.base == w.base && s.w.socketPath == w.socketPath
    ensures s.effects <= SetupSteps(w.socketPath, w.socketPath in files)
    ensures s.error.None? <==> o.created && o.bound && o.listened
    ensures s.error == Some(CreateFailed) <==> !o.created
    ensures s.error == Some(BindFailed) <==> o.created && !o.bound
    ensures s.error.None? ==> s.effects == SetupSteps(w.socketPath, w.socketPath in files)
    ensures s.error.Some? ==> |s.effects| >= 1 && s.effects[|s.effects| - 1] == FailingStep(w.socketPath, s.error.value)
    ensures s.w.hasSocket <==> o.created
    ensures s.files - {w.socketPath} == files - {w.socketPath}
    ensures w.socketPath in s.files <==> (o.created && o.bound) || (w.socketPath in files && !o.unlinked)
  {
    var path := w.socketPath;
    var stale := path in files;
    var pre := if stale then [FileUnlinked(path)] else [];
    var cleared := Unlink(files, path, o.unlinked);
    var steps := SetupSteps(path, stale);
    assert steps == pre + [SocketCreated, PathBound(path), Listened(Backlog), ModeChanged(path, SocketMode), NonBlockingSet];
    if !o.created then
      assert pre + [SocketCreated] <= steps;
      Setup(w.(hasSocket := false), cleared, pre + [SocketCreated], Some(CreateFailed))
    else if !o.bound then
      assert pre + [SocketCreated, PathBound(path)] <= steps;
      Setup(w.(hasSocket := true), cleared, pre + [SocketCreated, PathBound(path)], Some(BindFailed))
    else if !o.listened then
      assert pre + [SocketCreated, PathBound(path), Listened(Backlog)] <= steps;
      Setup(w.(hasSocket := true), cleared + {path},
        pre + [SocketCreated, PathBound(path), Listened(Backlog)], Some(ListenFailed))
    else
      Setup(w.(hasSocket := true), cleared + {path}, steps, None)
  }

  /** `cleanup`: close the listening socket if there is one, and remove the
      socket file if it exists; `unlinked` says whether that `unlink`
      succeeds. */
  function Cleanup(w: UnixWorker, files: Files, unlinked: bool): (r: (UnixWorker, Files, seq<Effect>))
    ensures !r.0.hasSocket && r.0.base == w.base && r.0.socketPath == w.socketPath
    ensures r.1 - {w.socketPath} == files - {w.socketPath}
    ensures w.socketPath in r.1 <==> w.socketPath in files && !unlinked
    ensures ListenerClosed in r.2 <==> w.hasSocket
    ensures FileUnlinked(w.socketPath) in r.2 <==> w.socketPath in files
    ensures |r.2| <= 2 && (w.hasSocket ==> r.2[0] == ListenerClosed)
  {
    var closed := if w.hasSocket then [ListenerClosed] else [];
    var unlinkCall := if w.socketPath in files then [FileUnlinked(w.socketPath)] else [];
    (w.(hasSocket := false), Unlink(files, w.socketPath, unlinked), closed + unlinkCall)
  }

  /** A second `cleanup` closes nothing; once the first one has removed the
      socket file, the second does nothing and changes nothing. */
  lemma CleanupIdempotent(w: UnixWorker, files: Files, unlinked: bool, again: bool)
    ensures var c := Cleanup(w, files, unlinked);
      ListenerClosed !in Cleanup(c.0, c.1, again).2
    ensures var c := Cleanup(w, files, unlinked);
      w.socketPath !in c.1 ==> Cleanup(c.0, c.1, again) == (c.0, c.1, [])
  {
    var c := Cleanup(w, files, unlinked);
    var d := Cleanup(c.0, c.1, again);
    if w.socketPath !in c.1 {
      assert d.0 == c.0;
      assert d.1 == c.1;
      assert d.2 == [];
    }
  }

  /** What `handle` did: the final state, the effects, the number of
      `processData` calls, and the setup error if setup threw. */
  datatype Run = Run(w: UnixWorker, files: Files, effects: seq<Effect>, calls: nat, error: Option<SetupError>)

  /** `handle`: set up the server, loop over the ticks, clean up once the
      loop has exited. If setup throws, neither the loop nor the cleanup
      runs. `unlinked` says whether cleanup's `unlink` succeeds. */
  method Handle(w: UnixWorker, files: Files, o: SetupOracle, unlinked: bool,
                ticks: seq<BaseProcess.Tick<Option<StreamServer.Conn>>>, processMessage: Handler)
    returns (r: Run)
    ensures var s := CreateSocketServer(w, files, o);
      s.error.Some? ==> r == Run(s.w, s.files, s.effects, 0, s.error)
    ensures var s := CreateSocketServer(w, files, o);
      s.error.None? ==>
        && r.error.None? && r.calls <= |ticks|
        && var loop := s.effects + BaseProcess.Iterations(ticks[..r.calls], StreamServer.Step(processMessage));
           r.effects == (if r.w.base.running then loop else loop + Cleanup(s.w, s.files, unlinked).2)
    ensures var s := CreateSocketServer(w, files, o);
      s.error.None? ==> r.files == (if r.w.base.running then s.files else Cleanup(s.w, s.files, unlinked).1)
    ensures r.w.socketPath == w.socketPath && r.w.base.args == w.base.args
    ensures r.files - {w.socketPath} == files - {w.socketPath}
    ensures r.error.None? ==> (r.w.base.running <==> w.base.running && BaseProcess.FirstShutdown(ticks) == |ticks|)
    ensures r.error.None? && w.base.running ==> r.calls == BaseProcess.LoopCalls(ticks)
    ensures r.error.None? && !w.base.running ==> r.calls == 0
    ensures r.error.None? && !r.w.base.running ==>
      && !r.w.hasSocket && ListenerClosed in r.effects
      && (r.w.socketPath in r.files <==> !unlinked)
    ensures r.error.None? && r.w.base.running ==> r.w.hasSocket && r.w.socketPath in r.files
  {
    var s := CreateSocketServer(w, files, o);
    if s.error.Some? {
      return Run(s.w, s.files, s.effects, 0, s.error);
    }
    var base, calls, loopEffects := BaseProcess.Handle(s.w.base, ticks, StreamServer.Step(processMessage));
    var w1 := s.w.(base := base);
    if base.running {
      r := Run(w1, s.files, s.effects + loopEffects, calls, None);
    } else {
      var (w2, files2, cleanupEffects) := Cleanup(w1, s.files, unlinked);
      assert cleanupEffects == Cleanup(s.w, s.files, unlinked).2;
      assert files2 == Cleanup(s.w, s.files, unlinked).1;
      r := Run(w2, files2, s.effects + loopEffects + cleanupEffects, calls, None);
    }
  }
}

=== FILE: workerio.dfy ===
/** What a worker does to the outside world, recorded as a sequence of
    effects: pipe and socket calls, handler calls, signal dispatch, sleeps. */
module WorkerIo {

  import opened Results
  import opened ByteStrings

  const SOCK_STREAM: int := 1
  const SOCK_DGRAM: int := 2

  /** The bound every read passes to the OS. */
  const ReadSize: nat := 8192

  /** The listen backlog of the socket transports. */
  const Backlog: nat := 128

  datatype Effect =
    | SignalsDispatched                      // pcntl_signal_dispatch()
    | Slept(micros: nat)                     // usleep(...)
    | PipeRead(max: nat)                     // $worker->read($max)
    | PipeWrite(data: Bytes)                 // $worker->write($data)
    | HandlerCalled(data: Bytes)             // $this->processMessage($data)
    | AcceptTried                            // socket_accept($this->socket)
    | ClientRead(max: nat)                   // socket_read($client, $max)
    | ClientWrite(data: Bytes)               // socket_write($client, $data, strlen($data))
    | ClientClosed                           // socket_close($client)
    | FileUnlinked(path: Bytes)              // unlink($path)
    | SocketCreated                          // socket_create(...)
    | ReuseAddrSet                           // socket_set_option(..., SO_REUSEADDR, 1)
    | PathBound(path: Bytes)                 // socket_bind($socket, $path)
    | AddressBound(host: Bytes, port: int)   // socket_bind($socket, $host, $port)
    | Listened(backlog: nat)                 // socket_listen($socket, $backlog)
    | ModeChanged(path: Bytes, mode: nat)    // chmod($path, $mode)
    | NonBlockingSet                         // socket_set_nonblock($socket)
    | PortQueried                            // socket_getsockname($socket, ...)
    | ListenerClosed                         // socket_close($this->socket)

  /** The user-supplied `processMessage`: a response, or `null` for none. */
  type Handler = Bytes -> Option<Bytes>

  /** The payloads a view picks out of an effect log, in order. */
  function Project(e: seq<Effect>, view: Effect -> Option<Bytes>): (r: seq<Bytes>)
    ensures |r| <= |e|
  {
    if e == [] then []
    else View(e[0], view) + Project(e[1..], view)
  }

  lemma {:induction false} ProjectAppend(a: seq<Effect>, b: seq<Effect>, view: Effect -> Option<Bytes>)
    ensures Project(a + b, view) == Project(a, view) + Project(b, view)
    decreases |a|
  {
    if a == [] {
      assert a + b == b;
    } else {
      assert (a + b)[0] == a[0];
      assert (a + b)[1..] == a[1..] + b;
      ProjectAppend(a[1..], b, view);
    }
  }

  /** The payload one effect contributes to a projection. */
  function View(x: Effect, view: Effect -> Option<Bytes>): seq<Bytes> {
    match view(x) case Some(b) => [b] case None => []
  }

  lemma ProjectCons(x: Effect, rest: seq<Effect>, view: Effect -> Option<Bytes>)
    ensures Project([x] + rest, view) == View(x, view) + Project(rest, view)
  {
    assert ([x] + rest)[1..] == rest;
  }

  /** `ProjectCons` for the three projections the properties use. */
  lemma ProjectAll(x: Effect, rest: seq<Effect>)
    ensures Calls([x] + rest) == View(x, CallView) + Calls(rest)
    ensures PipeWrites([x] + rest) == View(x, PipeWriteView) + PipeWrites(rest)
    ensures ClientWrites([x] + rest) == View(x, ClientWriteView) + ClientWrites(rest)
  {
    ProjectCons(x, rest, CallView);
    ProjectCons(x, rest, PipeWriteView);
    ProjectCons(x, rest, ClientWriteView);
  }

  function CallView(x: Effect): Option<Bytes> {
    if x.HandlerCalled? then Some(x.data) else None
  }

  function PipeWriteView(x: Effect): Option<Bytes> {
    if x.PipeWrite? then Some(x.data) else None
  }

  function ClientWriteView(x: Effect): Option<Bytes> {
    if x.ClientWrite? then Some(x.data) else None
  }

  /** The arguments of the handler calls in a log. */
  function Calls(e: seq<Effect>): seq<Bytes> {
    Project(e, CallView)
  }

  /** The payloads written to the worker's pipe. */
  function PipeWrites(e: seq<Effect>): seq<Bytes> {
    Project(e, PipeWriteView)
  }

  /** The payloads written to accepted clients. */
  function ClientWrites(e: seq<Effect>): seq<Bytes> {
    Project(e, ClientWriteView)
  }

  /** Where a response goes: back through the pipe, or to the accepted client. */
  datatype Channel = Pipe | Client

  function WriteTo(c: Channel, data: Bytes): Effect {
    match c
    case Pipe => PipeWrite(data)
    case Client => ClientWrite(data)
  }

  /** The writes a handler result causes: one for a string, none for `null`. */
  function Reply(result: Option<Bytes>, c: Channel): (e: seq<Effect>)
    ensures result.None? ==> e == []
    ensures result.Some? ==> e == [WriteTo(c, result.value)]
  {
    match result
    case None => []
    case Some(r) => [WriteTo(c, r)]
  }

  lemma ReplyProjections(result: Option<Bytes>, c: Channel)
    ensures Calls(Reply(result, c)) == []
    ensures PipeWrites(Reply(result, c)) == if c == Pipe && result.Some? then [result.value] else []
    ensures ClientWrites(Reply(result, c)) == if c == Client && result.Some? then [result.value] else []
  {
    if result.Some? {
      ProjectAll(WriteTo(c, result.value), []);
    }
  }

  /** `ProjectAppend` for the three projections the properties use. */
  lemma ProjectAppendAll(a: seq<Effect>, b: seq<Effect>)
    ensures Calls(a + b) == Calls(a) + Calls(b)
    ensures PipeWrites(a + b) == PipeWrites(a) + PipeWrites(b)
    ensures ClientWrites(a + b) == ClientWrites(a) + ClientWrites(b)
  {
    ProjectAppend(a, b, CallView);
    ProjectAppend(a, b, PipeWriteView);
    ProjectAppend(a, b, ClientWriteView);
  }

  /** A log with nothing a view picks projects to nothing. */
  lemma {:induction false} ProjectNone(e: seq<Effect>, view: Effect -> Option<Bytes>)
    requires forall i :: 0 <= i < |e| ==> view(e[i]).None?
    ensures Project(e, view) == []
    decreases |e|
  {
    if e != [] {
      ProjectNone(e[1..], view);
    }
  }
}
